=== FILE: README.md ===
# Crawlee crawl engine, modelled in Dafny

Crawlee is a small site crawler. A `Crawlee` object is configured with a host and options. `go()` fetches the seed page (the base URL). It then runs a 50 ms interval timer. Each firing of the timer takes one queued URL and, if it was not seen before, fetches it. Each fetched page or stylesheet is searched for more references. Every reference goes through `checkWhetherToDownload`, an ordered chain of substring tests that decides whether to fetch it and rewrites it into a URL under the base URL. The crawl ends after twenty-one idle firings.

This project models that engine, `src/scraper.js`, in pure functions:

- `JsStrings`: the JavaScript string operations the code relies on.
  - `indexOf` returns the first occurrence or -1.
  - `replace` with a string pattern rewrites only the first occurrence.
  - `split('/')[0]` is the text before the first slash.
- `CrawlConfig`: the constructor with its `||` defaults, the base URL, the queue record and `addToQueue`.
- `Admission`: `checkWhetherToDownload`, the admission filter and canonicaliser. `AdmissionExamples` holds worked examples for host `example.com`.
- `ContentType`: the reclassification of a fetched resource by its `content-type` header, inside `saveFile`.
- `Extractors`: `searchHtml` and `searchCss` over pre-parsed input.
  - For `searchHtml`: the page's elements with their `href`/`src` attributes, in document order.
  - For `searchCss`: the string values of the `url()` tokens inside its declarations; a `url()` in an at-rule such as `@import` is never visited.
  - A functional definition is given, together with the imperative loop that realises it.
- `Scheduler`: the state of the crawler and of the `go()` closure. Every callback the event loop can run is an event:
  - a timer firing;
  - the seed arriving or failing;
  - a fetch resolving or rejecting;
  - a pending extraction's `.then`.
  There is one step function per event, and `Run` folds a sequence of events.
- `CrawlInvariants`: an invariant kept by every event. From it, the properties of all reachable states follow, whatever the interleaving:
  - the connection bound;
  - at-most-once dispatch by the timer (the seed URL may be fetched once more);
  - the accounting of `stats`;
  - when the crawl can end, and what happens after it ends or when the seed fails.

The domain-validity oracle `cheeto.isValid` is a field `isValid: string -> bool` of `Config` and is left uninterpreted. Timers are not modelled. Any interleaving of events is allowed, which includes orders the JavaScript event loop never produces, so the invariants hold a fortiori for the real schedules.

Four fields of the scheduler state are bookkeeping the source does not keep:
- `seedPending`: the seed fetch is still outstanding;
- `inFlight`: the records of the open fetches;
- `searches`: the pending extractions, as a multiset;
- `dispatched`: the log of URLs handed to `saveFile`.

The invariant ties the source's counters to them. For example, `openConnections == |inFlight|` and `currentSearches == |searches|`.

### Where the code and its description differ

The model follows the code in these places.

- **Absolute same-host links.** `https://example.com/a` is accepted, but its canonical form is `http://example.com/example.com/a`, not `http://example.com/a`.
  - The scheme is removed before the base URL is looked for, so the host stays in the path.
  - See `Admission.AbsoluteHttpsKeepsHost` and `AdmissionExamples.SameHostAbsoluteKeepsHost`.
- **Relative references depend on the oracle.** `./sub/page` and `/sub` are accepted only when `isValid` rejects `http://.` and `http://` respectively, because the oracle test comes first.
- **When the crawl ends.** The timer is cleared on the idle firing that takes `finishedCount` past 20, that is, the twenty-first.
  - The idle firings need not be consecutive. A firing that dequeues an already-seen URL neither counts as idle nor resets the counter.
  - Only dispatching a fresh URL resets it. Enqueueing alone does not.
  - A firing while an extraction is pending does neither.

## Model

| member | source | states |
|---|---|---|
| CrawlConfig.MakeConfig | src/scraper.js:27-37 | The `||` defaults: protocol 'http' for a missing or empty one, `maxConnections` 1 for a missing or zero one (so never 0), download flags always on whatever is passed, and a base URL that starts with the protocol and ends with '/'. |
| CrawlConfig.AddToQueue | src/scraper.js:337-343 | The queue grows by exactly one record at the tail, holding the URL and type with zero attempts; the earlier records are untouched. |
| JsStrings.IndexOf | src/scraper.js:121-142 | `indexOf` is -1 or a position where the pattern fits in the string. Which position it is, is stated by `JsStrings.IndexOfMeaning`. |
| JsStrings.ReplaceFirst | src/scraper.js:150-155 | `replace` either leaves the string alone or trades one pattern-length stretch for the replacement. Its full meaning is in `JsStrings.ReplaceFirstMeaning`. |
| JsStrings.FirstSegment | src/scraper.js:132 | `split('/')[0]` is a prefix of the string that is either all of it or stops at a slash. |
| CrawlConfig.Config.BaseUrl | src/scraper.js:37 | The base URL is protocol, '://', host and a trailing '/'. |
| JsStrings.IndexFromMeaning | src/scraper.js:121-142 | `indexOf` from a position is -1 exactly when the pattern occurs nowhere from there, and otherwise returns an occurrence with none before it. |
| JsStrings.IndexOfMeaning | src/scraper.js:121-142 | `indexOf` is -1 exactly when the pattern is absent, and otherwise the first occurrence. |
| JsStrings.IndexOfZero | src/scraper.js:136-142 | `indexOf` is 0 exactly when the string starts with the pattern, the same-host test of the filter. |
| JsStrings.ReplaceFirstMeaning | src/scraper.js:150 | `replace` with a string pattern leaves a string without the pattern unchanged. Otherwise it replaces exactly the first occurrence, s[..i] + r + s[i+|p|..] for the first occurrence i, and the result's length changes accordingly. |
| JsStrings.FirstSegmentHasNoSlash | src/scraper.js:132 | `split('/')[0]` holds no slash. |
| JsStrings.SegmentBeforeSlash | src/scraper.js:132 | `split('/')[0]` is the text up to the first slash. |
| Admission.Classify | src/scraper.js:121-148 | A reference is taken as './'-relative only when it is longer than two characters and starts with './'. It counts as a foreign domain only when the oracle accepts its first segment. |
| Admission.Canonicalise | src/scraper.js:150-156 | Whatever the reference, the rewritten URL starts with the base URL. |
| Admission.CheckWhetherToDownload | src/scraper.js:117-158 | The returned URL is under the base URL whatever the decision. |
| Admission.ClassifyMeaning | src/scraper.js:121-148 | Each branch of the if/else-if chain is taken exactly when its substring or oracle test holds and every earlier one fails. |
| Admission.AdmissionRules | src/scraper.js:121-148 | A mail or phone reference is refused even when it names the host. An absolute one is accepted exactly when the host occurs anywhere in it. One whose first segment the oracle accepts is refused. Any other is accepted unless it holds the host somewhere other than at its start. |
| Admission.RelativeReference | src/scraper.js:143-156 | A relative reference with no scheme and no copy of the base URL is accepted and becomes the base URL plus the reference without its leading './' or '/'. |
| Admission.HttpsPrefixAddsNoMarker | src/scraper.js:121-124 | Putting 'https://' in front of a string creates no new 'http://', 'mailto:' or 'tel:'. |
| Admission.AbsoluteHttpsKeepsHost | src/scraper.js:124-156 | `https://<rest>` is accepted exactly when it names the host, and becomes base URL + `<rest>`, host included. |
| Admission.CanonicaliseHttps | src/scraper.js:150-156 | The rewrite of `https://<rest>` removes only the scheme, so the base URL is no longer found. |
| Admission.HttpPrefixAddsNoMarker | src/scraper.js:121-124 | Putting 'http://' in front of a string creates no new 'https://', 'mailto:' or 'tel:'. |
| Admission.AbsoluteHttpKeepsHost | src/scraper.js:124-156 | `http://<rest>` is accepted exactly when it names the host, and becomes base URL + `<rest>`, host included. |
| Admission.CanonicaliseHttp | src/scraper.js:150-156 | The rewrite of `http://<rest>` removes only the scheme, so the base URL is no longer found. |
| AdmissionExamples.MailtoRejected | src/scraper.js:121-123 | `mailto:x@example.com` is refused. |
| AdmissionExamples.ForeignAbsoluteRejected | src/scraper.js:124-131 | `https://other.com/a` is refused for host `example.com`. |
| AdmissionExamples.SameHostAbsoluteKeepsHost | src/scraper.js:124-156 | `https://example.com/a` is accepted as `http://example.com/example.com/a`. |
| AdmissionExamples.SameHostHttpKeepsHost | src/scraper.js:124-156 | On an http crawl of `example.com`, `http://example.com/a` is accepted as `http://example.com/example.com/a`. |
| AdmissionExamples.DotSlashAccepted | src/scraper.js:143-156 | `./sub/page` becomes `http://example.com/sub/page` when the oracle rejects `http://.`. |
| AdmissionExamples.RootRelativeAccepted | src/scraper.js:150-156 | `/sub` becomes `http://example.com/sub` when the oracle rejects `http://`. |
| AdmissionExamples.HostWithoutSchemeRejected | src/scraper.js:132-142 | `example.com/x` is refused when the oracle accepts `http://example.com`: the domain test precedes the same-host test. |
| ContentType.Reclassify | src/scraper.js:75-82 | Only an undefined, 'other' or 'page' type is reclassified, by exact header equality. 'text/html' gives a page saved as `index.html`, 'text/css' gives a stylesheet, and anything else keeps the requested type. |
| ContentType.DefiniteKindKept | src/scraper.js:75 | A 'css', 'javascript' or 'image' request is never reclassified. |
| ContentType.HtmlHeaderMakesPage | src/scraper.js:76-78 | An ambiguous request answered with 'text/html' becomes a page at `index.html`. |
| ContentType.CssHeaderMakesStylesheet | src/scraper.js:79-80 | An ambiguous request answered with 'text/css' becomes a stylesheet. |
| ContentType.ReclassifyIdempotent | src/scraper.js:75-82 | Reclassifying the result again under the same header changes nothing. |
| ContentType.HeaderWithParametersIgnored | src/scraper.js:76 | 'text/html; charset=utf-8' does not match, so an anchor's 'other' type stays. |
| Extractors.Candidates | src/scraper.js:191-249 | At most one reference per element, and never an empty one. |
| Extractors.CandidatesMember | src/scraper.js:191-249 | A string is read by a selector exactly when an element with that tag carries it as a present, non-empty attribute. |
| Extractors.CandidatesConcat | src/scraper.js:191-249 | Document order is kept across any split of the page. |
| Extractors.Admit | src/scraper.js:175-178 | Every queued record has the selector's type, zero attempts, and a URL under the base URL. |
| Extractors.AdmitMember | src/scraper.js:175-178 | A record is queued exactly for a reference the filter accepts, under its canonical URL. |
| Extractors.AdmitConcat | src/scraper.js:175-178 | The order of references is kept across any split. |
| Extractors.HarvestMember | src/scraper.js:191-201 | One selector loop queues a record exactly for an element with the tag whose reference the filter accepts. |
| Extractors.GroupsInOrder | src/scraper.js:191-249 | Groups of anchors, links, scripts and images, in that order, are sorted by that rank. |
| Extractors.SearchHtml | src/scraper.js:186-252 | No discovery is typed 'page', and the groups come in the order anchors, links, scripts, images. |
| Extractors.SearchHtmlMember | src/scraper.js:186-252 | A record is queued exactly for a selected element with a present, non-empty attribute that the filter accepts, typed 'other' for anchors, 'css' for links, 'javascript' for scripts and 'image' for images. |
| Extractors.SearchHtmlEntries | src/scraper.js:186-252 | Every queued record has zero attempts and a URL under the base URL. Its type is 'other', or that of a selector whose flag is on. |
| Extractors.SearchHtmlFresh | src/scraper.js:186-252 | Every record `searchHtml` queues is fresh and under the base URL. |
| Extractors.SearchHtmlInto | src/scraper.js:186-252 | The imperative loops, run in turn on the queue, append exactly the functional definition's records. |
| Extractors.EnqueueOne | src/scraper.js:191-201 | The loop body for one element adds at most one record, the element's canonical reference. It adds it exactly when the element has the tag and a present, non-empty reference that the filter accepts. |
| Extractors.EnqueueOneAdmits | src/scraper.js:191-201 | The loop body for one element appends exactly what a selector loop over that single element would queue. |
| Extractors.HarvestStep | src/scraper.js:191-201 | One more element extends a selector loop's output by that element's admitted record, if any. |
| Extractors.EachEnqueue | src/scraper.js:191-201 | The `each` loop appends exactly the selector's harvest, in document order. |
| JsStrings.Substr | src/scraper.js:172 | JavaScript `substr` gives the slice when it fits. |
| Extractors.Unquote | src/scraper.js:172 | The text of a `url()` string token is the token without its first and last characters. A token of two characters or fewer gives the empty string. |
| Extractors.UnquoteQuoted | src/scraper.js:172 | Stripping the first and last characters of a quoted token gives back the text between the quotes. |
| Extractors.UnquoteAll | src/scraper.js:166-173 | One unquoted text per `url()` value, in order. |
| Extractors.SearchCss | src/scraper.js:160-184 | Every queued record is typed 'other', has zero attempts and a URL under the base URL. |
| Extractors.SearchCssMember | src/scraper.js:160-184 | A record is queued exactly for a `url()` value whose unquoted text the filter accepts. Empty texts are not skipped. |
| Extractors.SearchCssFresh | src/scraper.js:160-184 | Every record `searchCss` queues is fresh and under the base URL. |
| Scheduler.Init | src/scraper.js:254-257 | `go()` starts with empty queue and logs, the seed counted as one pending search, and the timer not yet started. |
| Scheduler.TickStep | src/scraper.js:266-331 | A firing does nothing when the timer is cleared, the seed has not arrived, or `openConnections >= maxConnections`. Otherwise it dequeues the head and records it in `downloaded` even when seen before, and opens a fetch (resetting `finishedCount`) only for an unseen URL. On an empty queue it counts an idle firing only with no search pending, ending the crawl past 20. |
| Scheduler.SeedDoneStep | src/scraper.js:259-264 | The seed's links are queued and the timer starts; `downloaded` and `stats` are untouched. |
| Scheduler.SeedFailStep | src/scraper.js:259-264 | A failed seed changes nothing but the model's own pending flag. |
| Scheduler.ResolvedKind | src/scraper.js:75-82 | A fetched 'css', 'javascript' or 'image' record keeps its type. An 'other' or 'page' record becomes a page when the header is exactly 'text/html', a stylesheet when it is exactly 'text/css', and keeps its type otherwise. |
| Scheduler.AnchorPageIsSearched | src/scraper.js:285-294 | An 'other' record answered with 'text/html' is searched as a page: `searchHtml`'s discoveries join the queue and a page extraction becomes pending. |
| Scheduler.FetchOkStep | src/scraper.js:285-310 | A resolved fetch releases its connection and counts `total` once. For the type `saveFile` resolves with: a page's `searchHtml` discoveries or a stylesheet's `searchCss` discoveries are appended to the queue, and its extraction becomes pending (`currentSearches` up by one). A script, image or other resource moves exactly its own counter. `html` and `css` stay unchanged until the extraction completes. `downloaded`, the dispatch log and the idle counter are left alone. |
| Scheduler.FetchFailStep | src/scraper.js:311-315 | A failed fetch releases its connection and counts only `failed`; nothing else changes. |
| Scheduler.ExtractionDoneStep | src/scraper.js:260-299 | A pending search's callback (the seed's, a page's or a stylesheet's) decrements `currentSearches` and counts `html` or `css` for a page or stylesheet. No other counter and nothing else in the state changes. The seed's callback runs only after the seed arrived. |
| Scheduler.Step | src/scraper.js:254-335 | Only a timer firing dispatches or records URLs. The dispatch log only grows, and an ended crawl stays ended whatever event comes. |
| Scheduler.Run | src/scraper.js:254-335 | Along any sequence of events the dispatch log only grows, and an ended crawl stays ended. |
| Scheduler.ScanDownloaded | src/scraper.js:272-278 | The linear scan reports a hit exactly when some downloaded record has the URL. |
| CrawlInvariants.InitInv | src/scraper.js:254-257 | The invariant holds when `go()` starts. |
| CrawlInvariants.TickPreservesInv | src/scraper.js:266-331 | A timer firing keeps the invariant. |
| CrawlInvariants.SeedDonePreservesInv | src/scraper.js:259-264 | The seed's arrival keeps the invariant. |
| CrawlInvariants.SeedFailPreservesInv | src/scraper.js:259 | The seed's failure keeps the invariant. |
| CrawlInvariants.FetchOkPreservesInv | src/scraper.js:285-310 | A resolved fetch keeps the invariant. |
| CrawlInvariants.FetchFailPreservesInv | src/scraper.js:311-315 | A failed fetch keeps the invariant. |
| CrawlInvariants.ExtractionDonePreservesInv | src/scraper.js:291-299 | A search callback keeps the invariant. |
| CrawlInvariants.StepPreservesInv | src/scraper.js:254-335 | Every event keeps the invariant. |
| CrawlInvariants.RunPreservesInv | src/scraper.js:254-335 | Every sequence of events keeps the invariant. |
| CrawlInvariants.Reachable | src/scraper.js:254-335 | Every state reachable from `go()` satisfies the invariant. |
| CrawlInvariants.ConnectionsBounded | src/scraper.js:267 | `openConnections` never exceeds `maxConnections`, or 0 if `maxConnections` is not positive. |
| CrawlInvariants.AtMostOnceFetch | src/scraper.js:270-285 | The timer never dispatches a URL twice. The URLs it dispatches are exactly those recorded in `downloaded`. The seed URL, fetched by `go()` without being recorded, may be fetched once more. |
| CrawlInvariants.StatsAccounting | src/scraper.js:285-315 | `total` equals js + css + image + html + other plus the pending page and stylesheet searches. total + failed + open fetches equals the number of fetches started. The seed counts in none of them. |
| CrawlInvariants.FetchedUnderBase | src/scraper.js:150-156 | Every URL fetched after the seed starts with the base URL. |
| CrawlInvariants.CompletionOnlyWhenIdle | src/scraper.js:317-328 | The crawl ends only on an active timer firing with an empty queue, no search pending and twenty idle firings already counted. |
| CrawlInvariants.IdleFiringCompletes | src/scraper.js:320-324 | Conversely, such a firing ends the crawl. |
| CrawlInvariants.IdleTicksComplete | src/scraper.js:317-328 | From an active state with nothing queued or searched, the remaining idle firings end the crawl, with open fetches untouched. |
| CrawlInvariants.DoneWithFetchOpen | src/scraper.js:317-328 | With two connections free, the crawl ends while the last dispatched fetch is still open: the idle test ignores `openConnections`. |
| CrawlInvariants.SingleConnectionDrains | src/scraper.js:267 | With `maxConnections` 1, the crawl can end only with no fetch open. |
| CrawlInvariants.FinishedCountResetOnlyOnDispatch | src/scraper.js:282-321 | Only timer firings change the idle counter. It goes down only to 0, and only when a fetch is dispatched. |
| CrawlInvariants.SeedFailureStallsForever | src/scraper.js:259-268 | After the seed fails, no event changes anything: every firing returns early. |
| CrawlInvariants.SeedFailureNeverCompletes | src/scraper.js:259-268 | A crawl whose seed failed never ends. |
| CrawlInvariants.NothingDispatchedAfterDone | src/scraper.js:324 | After the crawl ends, no URL is dispatched or recorded, even if open fetches queue more. |
| CrawlInvariants.SeedNotRecorded | src/scraper.js:259-264 | When the seed arrives, nothing is recorded in `downloaded` and no counter has moved. |
| CrawlInvariants.SeedPageFetchedAgain | src/scraper.js:259-285 | A link back to the base URL at the head of the queue is fetched again, because the seed was never recorded. |

## Left out

- Filesystem and network, i.e. what `saveFile` does with paths and requests (`src/scraper.js:59-115`): `path.join`, `mkdirp`, `fs.writeFile`, `request-promise`, the binary encoding option and `baseDir`. A fetch is one event that either resolves with a parsed body or rejects.
  - A `mkdirp` error that rejects the promise but lets the request proceed is folded into that single outcome.
- HTML and CSS parsing (cheerio, css-tree). The extractors are given what the parsers report: the elements with their attributes, and the `url()` string tokens inside declarations.
- The css-tree `Raw` branch (`src/scraper.js:169-170`). It passes a node object, not a string, to the filter, and only string tokens are modelled. The node has no `indexOf`, so the filter (`src/scraper.js:121`) throws and `searchCss`'s promise rejects. Its completion callback (`currentSearches--`, `src/scraper.js:297`) then never runs, and the crawl can never complete.
- The `cheeto` library. `isValid` is an uninterpreted parameter, and `cheeto.update()` is not modelled.
- Timers and clocks: the 50 ms interval, `startTime`, `endTime` and `elapsedSecs`. The resolution of the `go()` promise is the `done` flag.
- `preProcess` and `postProcess` user callbacks. `preProcess` is taken to resolve, and `postProcess` not to throw.
  - If `postProcess` threw, the rejection handler would also run for a fetch that succeeded. That decrements `openConnections` a second time and counts `failed`. The `currentSearches++` at `src/scraper.js:287` would get no matching decrement, so the crawl could never complete. This path is not modelled.
- The unhandled rejection of a failed seed fetch. It is modelled only as the timer never starting.
- JavaScript strings are UTF-16 code units. Here they are sequences of `char`.
- `attempts` is kept on every record and never read, so no behaviour depends on it.
- A non-integer `maxConnections` is not modelled. It is an `int`.
- `src/index.js` is not part of this model.
- Scheduler.SeedFailStep: states only that the failure changes nothing else, since the source runs no code for it.
- Admission.CheckWhetherToDownload: its own contract gives only the base-URL prefix. The decision is stated in `Admission.AdmissionRules` and `Admission.ClassifyMeaning`.
- Extractors.SearchHtml: its own contract gives the group order and the absence of 'page'. Membership and freshness are stated in `Extractors.SearchHtmlMember`, `Extractors.SearchHtmlEntries` and `Extractors.SearchHtmlFresh`.

=== FILE: admission.dfy ===
/**
 * The admission filter and canonicaliser `checkWhetherToDownload`: an
 * ordered chain of substring tests decides whether a discovered reference is
 * fetched, and the reference is then always rewritten into a URL under the
 * crawl's base URL, whatever the decision.
 */
module Admission {
  import opened JsStrings
  import opened CrawlConfig

  /** Which branch of the if/else-if chain a reference falls into, first match winning. */
  datatype Rule =
    | NonFetchable   // contains 'mailto:' or 'tel:'
    | Absolute       // contains 'http://' or 'https://'
    | ForeignHost    // first path segment is a valid domain by the oracle
    | HostInside     // contains the crawl host
    | DotSlash       // longer than two characters and starts with './'
    | Plain          // none of the above

  function Classify(cfg: Config, src: string): (rule: Rule)
    ensures rule == DotSlash ==> |src| > 2 && IsPrefix("./", src)
    ensures rule == ForeignHost ==> cfg.isValid("http://" + FirstSegment(src))
  {
    if IndexOf(src, "mailto:") != -1 || IndexOf(src, "tel:") != -1 then NonFetchable
    else if IndexOf(src, "http://") != -1 || IndexOf(src, "https://") != -1 then Absolute
    else if cfg.isValid("http://" + FirstSegment(src)) then ForeignHost
    else if IndexOf(src, cfg.url) != -1 then HostInside
    else if |src| > 2 && src[0] == '.' && src[1] == '/' then DotSlash
    else Plain
  }

  /** The `{download, url}` object the filter returns. */
  datatype Decision = Decision(download: bool, url: string)

  /** Drops one leading slash, as the canonicaliser does. */
  function DropSlash(s: string): string {
    if |s| > 0 && s[0] == '/' then s[1..] else s
  }

  /**
   * The rewrite applied to every reference: drop the first 'http://', then
   * the first 'https://', then the first copy of the base URL, then one
   * leading slash, and put the base URL in front.
   */
  function Canonicalise(cfg: Config, src: string): (url: string)
    ensures IsPrefix(cfg.BaseUrl(), url)
  {
    var base := cfg.BaseUrl();
    var stripped := ReplaceFirst(ReplaceFirst(ReplaceFirst(src, "http://", ""), "https://", ""), base, "");
    var rel := DropSlash(stripped);
    assert (base + rel)[..|base|] == base;
    base + rel
  }

  /** The branch conditions of `Classify`, read as substring tests. */
  lemma ClassifyMeaning(cfg: Config, src: string)
    ensures Classify(cfg, src) == NonFetchable <==> Contains(src, "mailto:") || Contains(src, "tel:")
    ensures Classify(cfg, src) == Absolute <==>
      !Contains(src, "mailto:") && !Contains(src, "tel:") && (Contains(src, "http://") || Contains(src, "https://"))
    ensures Classify(cfg, src) == ForeignHost <==>
      !Contains(src, "mailto:") && !Contains(src, "tel:") && !Contains(src, "http://") && !Contains(src, "https://")
      && cfg.isValid("http://" + FirstSegment(src))
    ensures Classify(cfg, src) in {HostInside, DotSlash, Plain} <==>
      !Contains(src, "mailto:") && !Contains(src, "tel:") && !Contains(src, "http://") && !Contains(src, "https://")
      && !cfg.isValid("http://" + FirstSegment(src))
    ensures Classify(cfg, src) == HostInside <==>
      Classify(cfg, src) in {HostInside, DotSlash, Plain} && Contains(src, cfg.url)
  {
    IndexOfMeaning(src, "mailto:");
    IndexOfMeaning(src, "tel:");
    IndexOfMeaning(src, "http://");
    IndexOfMeaning(src, "https://");
    IndexOfMeaning(src, cfg.url);
  }

  /**
   * `checkWhetherToDownload(src)`. The returned URL is under the base URL
   * whatever the decision; the decision itself is stated by
   * `AdmissionRules`.
   */
  function CheckWhetherToDownload(cfg: Config, src: string): (d: Decision)
    ensures IsPrefix(cfg.BaseUrl(), d.url)
  {
    var rule := Classify(cfg, src);
    var download :=
      match rule
      case NonFetchable => false
      case Absolute => IndexOf(src, cfg.url) != -1
      case ForeignHost => false
      case HostInside => IndexOf(src, cfg.url) == 0
      case DotSlash => true
      case Plain => true;
    Decision(download, Canonicalise(cfg, if rule == DotSlash then src[1..] else src))
  }

  /**
   * The decision, rule by rule in the order the source tests them: a mail
   * or phone link is refused even if it names the host; an absolute URL is
   * accepted exactly when the host occurs anywhere in it; a reference whose
   * first segment the oracle accepts as a domain is refused; one that holds
   * the host is accepted only when it starts with it; anything else is
   * accepted.
   */
  lemma AdmissionRules(cfg: Config, src: string)
    ensures var d := CheckWhetherToDownload(cfg, src);
      && (Contains(src, "mailto:") || Contains(src, "tel:") ==> !d.download)
      && (!Contains(src, "mailto:") && !Contains(src, "tel:")
          && (Contains(src, "http://") || Contains(src, "https://"))
          ==> (d.download <==> Contains(src, cfg.url)))
      && (!Contains(src, "mailto:") && !Contains(src, "tel:")
          && !Contains(src, "http://") && !Contains(src, "https://")
          && cfg.isValid("http://" + FirstSegment(src))
          ==> !d.download)
      && (!Contains(src, "mailto:") && !Contains(src, "tel:")
          && !Contains(src, "http://") && !Contains(src, "https://")
          && !cfg.isValid("http://" + FirstSegment(src))
          ==> (d.download <==> !Contains(src, cfg.url) || IsPrefix(cfg.url, src)))
  {
    ClassifyMeaning(cfg, src);
    IndexOfMeaning(src, cfg.url);
    IndexOfZero(src, cfg.url);
  }

  /**
   * A reference that survives the scheme tests and holds no copy of the base
   * URL is accepted as a path under the base URL; a leading './' or '/' is
   * removed.
   */
  lemma RelativeReference(cfg: Config, src: string)
    requires Classify(cfg, src) == DotSlash || Classify(cfg, src) == Plain
    requires !Contains(src, cfg.BaseUrl())
    ensures CheckWhetherToDownload(cfg, src).download
    ensures Classify(cfg, src) == DotSlash ==> CheckWhetherToDownload(cfg, src).url == cfg.BaseUrl() + src[2..]
    ensures Classify(cfg, src) == Plain ==> CheckWhetherToDownload(cfg, src).url == cfg.BaseUrl() + DropSlash(src)
  {
    ClassifyMeaning(cfg, src);
    var s := if Classify(cfg, src) == DotSlash then src[1..] else src;
    ContainsSuffix(src, "http://", |src| - |s|);
    ContainsSuffix(src, "https://", |src| - |s|);
    ContainsSuffix(src, cfg.BaseUrl(), |src| - |s|);
    assert src[|src| - |s|..] == s;
    ReplaceFirstMeaning(s, "http://", "");
    assert ReplaceFirst(s, "http://", "") == s;
    ReplaceFirstMeaning(s, "https://", "");
    assert ReplaceFirst(s, "https://", "") == s;
    ReplaceFirstMeaning(s, cfg.BaseUrl(), "");
    assert Canonicalise(cfg, s) == cfg.BaseUrl() + DropSlash(s);
    if Classify(cfg, src) == DotSlash {
      assert s[1..] == src[2..];
    }
  }

  /**
   * Putting 'https://' in front of a string creates no new occurrence of
   * 'http://', 'mailto:' or 'tel:'.
   */
  lemma HttpsPrefixAddsNoMarker(rest: string)
    ensures Contains("https://" + rest, "http://") ==> Contains(rest, "http://")
    ensures Contains("https://" + rest, "mailto:") ==> Contains(rest, "mailto:")
    ensures Contains("https://" + rest, "tel:") ==> Contains(rest, "tel:")
  {
    var s := "https://" + rest;
    forall i | 8 <= i <= |s| ensures s[i..] == rest[i - 8..] {
    }
    forall i | 0 <= i < 8 ensures !IsPrefix("http://", s[i..]) {
      if i == 0 {
        assert s[4] == 's';
      } else {
        assert s[i] != 'h';
      }
    }
    forall i | 0 <= i < 8 ensures !IsPrefix("mailto:", s[i..]) {
      assert s[i] != 'm';
    }
    forall i | 0 <= i < 8 ensures !IsPrefix("tel:", s[i..]) {
      if i + 4 <= |s| {
        assert s[i..][..4][1] == s[i + 1] && s[i..][..4][3] == s[i + 3];
      }
      if i == 2 {
        assert s[3] == 'p';
      } else if i < 5 {
        assert s[i + 3] != ':';
      } else {
        assert s[i] != 't';
      }
    }
  }

  /**
   * An absolute reference `https://<rest>` is accepted exactly when it names
   * the crawl host, and is rewritten to `baseUrl + <rest>`: the scheme is
   * removed first, so the base URL is no longer found and the host stays
   * inside the path.
   */
  lemma AbsoluteHttpsKeepsHost(cfg: Config, rest: string)
    requires !Contains(rest, "mailto:") && !Contains(rest, "tel:")
    requires !Contains(rest, "http://") && !Contains(rest, "https://") && !Contains(rest, cfg.BaseUrl())
    requires |rest| == 0 || rest[0] != '/'
    ensures CheckWhetherToDownload(cfg, "https://" + rest).download <==> Contains("https://" + rest, cfg.url)
    ensures CheckWhetherToDownload(cfg, "https://" + rest).url == cfg.BaseUrl() + rest
  {
    var src := "https://" + rest;
    HttpsPrefixAddsNoMarker(rest);
    assert IsPrefix("https://", src[0..]);
    ClassifyMeaning(cfg, src);
    IndexOfMeaning(src, cfg.url);
    CanonicaliseHttps(cfg, rest);
  }

  lemma CanonicaliseHttps(cfg: Config, rest: string)
    requires !Contains(rest, "http://") && !Contains(rest, cfg.BaseUrl())
    requires |rest| == 0 || rest[0] != '/'
    ensures Canonicalise(cfg, "https://" + rest) == cfg.BaseUrl() + rest
  {
    var src := "https://" + rest;
    HttpsPrefixAddsNoMarker(rest);
    ReplaceFirstMeaning(src, "http://", "");
    var a := ReplaceFirst(src, "http://", "");
    assert a == src;
    assert IsPrefix("https://", src);
    ReplaceFirstMeaning(a, "https://", "");
    var b := ReplaceFirst(a, "https://", "");
    assert b == src[8..] == rest;
    ReplaceFirstMeaning(b, cfg.BaseUrl(), "");
    var c := ReplaceFirst(b, cfg.BaseUrl(), "");
    assert c == rest;
  }

  /**
   * Putting 'http://' in front of a string creates no new occurrence of
   * 'https://', 'mailto:' or 'tel:'.
   */
  lemma HttpPrefixAddsNoMarker(rest: string)
    ensures Contains("http://" + rest, "https://") ==> Contains(rest, "https://")
    ensures Contains("http://" + rest, "mailto:") ==> Contains(rest, "mailto:")
    ensures Contains("http://" + rest, "tel:") ==> Contains(rest, "tel:")
  {
    var s := "http://" + rest;
    forall i | 7 <= i <= |s| ensures s[i..] == rest[i - 7..] {
    }
    forall i | 0 <= i < 7 ensures !IsPrefix("https://", s[i..]) {
      if i == 0 {
        assert s[4] == ':';
      } else {
        assert s[i] != 'h';
      }
    }
    forall i | 0 <= i < 7 ensures !IsPrefix("mailto:", s[i..]) {
      assert s[i] != 'm';
    }
    forall i | 0 <= i < 7 ensures !IsPrefix("tel:", s[i..]) {
      if i + 4 <= |s| {
        assert s[i..][..4][1] == s[i + 1];
      }
      if i == 1 || i == 2 {
        assert s[i + 1] != 'e';
      } else {
        assert s[i] != 't';
      }
    }
  }

  /**
   * The plain-http twin of `AbsoluteHttpsKeepsHost`: `http://<rest>` is
   * accepted exactly when it names the crawl host, and becomes
   * `baseUrl + <rest>`, so on an http crawl `http://<host>/a` keeps the host
   * inside the path.
   */
  lemma AbsoluteHttpKeepsHost(cfg: Config, rest: string)
    requires !Contains(rest, "mailto:") && !Contains(rest, "tel:")
    requires !Contains(rest, "https://") && !Contains(rest, cfg.BaseUrl())
    requires |rest| == 0 || rest[0] != '/'
    ensures CheckWhetherToDownload(cfg, "http://" + rest).download <==> Contains("http://" + rest, cfg.url)
    ensures CheckWhetherToDownload(cfg, "http://" + rest).url == cfg.BaseUrl() + rest
  {
    var src := "http://" + rest;
    HttpPrefixAddsNoMarker(rest);
    assert IsPrefix("http://", src[0..]);
    ClassifyMeaning(cfg, src);
    IndexOfMeaning(src, cfg.url);
    CanonicaliseHttp(cfg, rest);
  }

  /** The rewrite of `http://<rest>` removes only the scheme. */
  lemma CanonicaliseHttp(cfg: Config, rest: string)
    requires !Contains(rest, "https://") && !Contains(rest, cfg.BaseUrl())
    requires |rest| == 0 || rest[0] != '/'
    ensures Canonicalise(cfg, "http://" + rest) == cfg.BaseUrl() + rest
  {
    var src := "http://" + rest;
    assert IsPrefix("http://", src);
    ReplaceFirstMeaning(src, "http://", "");
    var a := ReplaceFirst(src, "http://", "");
    assert a == src[7..] == rest;
    ReplaceFirstMeaning(a, "https://", "");
    ReplaceFirstMeaning(a, cfg.BaseUrl(), "");
  }
}

=== FILE: admission_examples.dfy ===
/**
 * Worked examples of the admission filter for a crawl of host
 * `example.com` with the constructor defaults (plain http, so the base URL
 * is `http://example.com/`), and the domain oracle left open except where an
 * example depends on it. Each example names its reference through a
 * parameter pinned by `requires`.
 */
module AdmissionExamples {
  import opened JsStrings
  import opened CrawlConfig
  import opened Admission

  function ExampleConfig(isValid: string -> bool): (cfg: Config)
    ensures cfg.url == "example.com" && cfg.protocol == "http" && cfg.isValid == isValid
  {
    Config("example.com", "http", true, true, true, 1, isValid)
  }

  /** Rules out the scheme tests for a reference without any ':' in it. */
  lemma NoColon(cfg: Config, src: string)
    requires ':' !in src
    requires cfg.protocol == "http"
    ensures !Contains(src, "mailto:") && !Contains(src, "tel:")
    ensures !Contains(src, "http://") && !Contains(src, "https://")
    ensures !Contains(src, cfg.BaseUrl())
  {
    MissingCharNotContained(src, "mailto:", ':');
    MissingCharNotContained(src, "tel:", ':');
    MissingCharNotContained(src, "http://", ':');
    MissingCharNotContained(src, "https://", ':');
    assert cfg.BaseUrl()[4] == ':';
    MissingCharNotContained(src, cfg.BaseUrl(), ':');
  }

  /** A mail link is refused even when it names the crawl host. */
  lemma MailtoRejected(isValid: string -> bool, src: string)
    requires src == "mailto:x@example.com"
    ensures !CheckWhetherToDownload(ExampleConfig(isValid), src).download
  {
    assert IsPrefix("mailto:", src[0..]);
    AdmissionRules(ExampleConfig(isValid), src);
  }

  /** An absolute reference to another host is refused. */
  lemma ForeignAbsoluteRejected(isValid: string -> bool, src: string)
    requires src == "https://other.com/a"
    ensures !CheckWhetherToDownload(ExampleConfig(isValid), src).download
  {
    MissingCharNotContained(src, "mailto:", 'i');
    MissingCharNotContained(src, "tel:", 'l');
    MissingCharNotContained(src, "example.com", 'x');
    assert IsPrefix("https://", src[0..]);
    AdmissionRules(ExampleConfig(isValid), src);
  }

  /**
   * An absolute reference to the crawl host is accepted, but its host is
   * kept inside the path: `https://example.com/a` becomes
   * `http://example.com/example.com/a`.
   */
  lemma SameHostAbsoluteKeepsHost(isValid: string -> bool, src: string)
    requires src == "https://example.com/a"
    ensures CheckWhetherToDownload(ExampleConfig(isValid), src)
            == Decision(true, ExampleConfig(isValid).BaseUrl() + "example.com/a")
  {
    var cfg := ExampleConfig(isValid);
    var rest := src[8..];
    assert rest == "example.com/a";
    assert src == "https://" + rest;
    NoColon(cfg, rest);
    assert IsPrefix("example.com", src[8..]);
    AbsoluteHttpsKeepsHost(cfg, rest);
  }

  /**
   * The same holds for a plain-http link on an http crawl:
   * `http://example.com/a` becomes `http://example.com/example.com/a`.
   */
  lemma SameHostHttpKeepsHost(isValid: string -> bool, src: string)
    requires src == "http://example.com/a"
    ensures CheckWhetherToDownload(ExampleConfig(isValid), src)
            == Decision(true, ExampleConfig(isValid).BaseUrl() + "example.com/a")
  {
    var cfg := ExampleConfig(isValid);
    var rest := src[7..];
    assert rest == "example.com/a";
    assert src == "http://" + rest;
    NoColon(cfg, rest);
    assert IsPrefix("example.com", src[7..]);
    AbsoluteHttpKeepsHost(cfg, rest);
  }

  /** `./sub/page` is a path under the base URL unless the oracle calls `.` a domain. */
  lemma DotSlashAccepted(isValid: string -> bool, src: string)
    requires src == "./sub/page"
    requires !isValid("http://.")
    ensures CheckWhetherToDownload(ExampleConfig(isValid), src)
            == Decision(true, ExampleConfig(isValid).BaseUrl() + "sub/page")
  {
    var cfg := ExampleConfig(isValid);
    NoColon(cfg, src);
    MissingCharNotContained(src, "example.com", 'x');
    assert src[1] == '/' && src[..1] == ".";
    SegmentBeforeSlash(src, 1);
    assert "http://" + FirstSegment(src) == "http://.";
    ClassifyMeaning(cfg, src);
    assert Classify(cfg, src) == DotSlash;
    RelativeReference(cfg, src);
  }

  /** `/sub` is a path under the base URL unless the oracle accepts an empty domain. */
  lemma RootRelativeAccepted(isValid: string -> bool, src: string)
    requires src == "/sub"
    requires !isValid("http://")
    ensures CheckWhetherToDownload(ExampleConfig(isValid), src)
            == Decision(true, ExampleConfig(isValid).BaseUrl() + "sub")
  {
    var cfg := ExampleConfig(isValid);
    NoColon(cfg, src);
    MissingCharNotContained(src, "example.com", 'x');
    assert src[0] == '/';
    SegmentBeforeSlash(src, 0);
    assert "http://" + FirstSegment(src) == "http://";
    ClassifyMeaning(cfg, src);
    assert Classify(cfg, src) == Plain;
    RelativeReference(cfg, src);
  }

  /**
   * A scheme-less reference that starts with the crawl host is refused when
   * the oracle accepts that host as a domain: the foreign-host test comes
   * before the same-host test.
   */
  lemma HostWithoutSchemeRejected(isValid: string -> bool, src: string)
    requires src == "example.com/x"
    requires isValid("http://" + "example.com")
    ensures !CheckWhetherToDownload(ExampleConfig(isValid), src).download
  {
    var cfg := ExampleConfig(isValid);
    NoColon(cfg, src);
    assert src[11] == '/';
    assert src[..11] == "example.com";
    SegmentBeforeSlash(src, 11);
    ClassifyMeaning(cfg, src);
  }
}

=== FILE: content_type.dfy ===
/**
 * The type reclassification inside `saveFile`: once a resource has been
 * fetched, an ambiguous requested type is replaced by what the response's
 * `content-type` header says, compared for exact equality.
 */
module ContentType {
  import opened Wrappers
  import opened CrawlConfig

  /** The type the fetched resource is handled as, and whether `/index.html` is appended to its file path. */
  datatype Routing = Routing(kind: Option<Kind>, indexHtml: bool)

  /** Requested types the header may override: undefined, 'other' and 'page'. */
  predicate Ambiguous(requested: Option<Kind>) {
    requested == None || requested == Some(Other) || requested == Some(Page)
  }

  function Reclassify(requested: Option<Kind>, contentType: Option<string>): (r: Routing)
    ensures r.indexHtml <==> Ambiguous(requested) && contentType == Some("text/html")
    ensures r.kind == requested || (Ambiguous(requested) && r.kind in {Some(Page), Some(Css)})
    ensures r.kind == Some(Page) <==>
      (Ambiguous(requested) && contentType == Some("text/html"))
      || (requested == Some(Page) && contentType != Some("text/css"))
    ensures r.kind == Some(Css) <==>
      requested == Some(Css) || (Ambiguous(requested) && contentType == Some("text/css"))
  {
    if Ambiguous(requested) then
      if contentType == Some("text/html") then Routing(Some(Page), true)
      else if contentType == Some("text/css") then Routing(Some(Css), false)
      else Routing(requested, false)
    else Routing(requested, false)
  }

  /** A 'css', 'javascript' or 'image' request is never reclassified. */
  lemma DefiniteKindKept(requested: Kind, contentType: Option<string>)
    requires requested in {Css, Javascript, Image}
    ensures Reclassify(Some(requested), contentType) == Routing(Some(requested), false)
  {
  }

  /** An ambiguous request answered with exactly 'text/html' becomes a page saved as `index.html`. */
  lemma HtmlHeaderMakesPage(requested: Option<Kind>)
    requires Ambiguous(requested)
    ensures Reclassify(requested, Some("text/html")) == Routing(Some(Page), true)
  {
  }

  /** An ambiguous request answered with exactly 'text/css' becomes a stylesheet. */
  lemma CssHeaderMakesStylesheet(requested: Option<Kind>)
    requires Ambiguous(requested)
    ensures Reclassify(requested, Some("text/css")) == Routing(Some(Css), false)
  {
  }

  /**
   * Reclassifying again under the same header changes nothing more, and
   * `/index.html` is requested again exactly for pages.
   */
  lemma ReclassifyIdempotent(requested: Option<Kind>, contentType: Option<string>)
    ensures var r := Reclassify(requested, contentType);
      Reclassify(r.kind, contentType).kind == r.kind
      && Reclassify(r.kind, contentType).indexHtml == r.indexHtml
  {
  }

  /**
   * The header comparison is exact: a header with parameters, such as
   * 'text/html; charset=utf-8', leaves an anchor's 'other' type alone.
   */
  lemma HeaderWithParametersIgnored(contentType: string)
    requires contentType == "text/html; charset=utf-8"
    ensures Reclassify(Some(Other), Some(contentType)) == Routing(Some(Other), false)
  {
    assert contentType[4] == '/' && |contentType| != |"text/html"|;
  }
}

=== FILE: crawl_config.dfy ===
/**
 * Configuration of one crawl, the constructor defaults of `Crawlee`, and the
 * queue records the crawler passes around.
 */
module CrawlConfig {
  import opened Wrappers
  import opened JsStrings

  /** The resource kinds a URL is tagged with: 'page', 'css', 'javascript', 'image', 'other'. */
  datatype Kind = Page | Css | Javascript | Image | Other

  /** A queue record `{url, type, attempts}`; `attempts` is kept but never read. */
  datatype Entry = Entry(url: string, kind: Kind, attempts: nat)

  /**
   * The settings the crawl engine reads. `isValid` stands for the domain
   * validity oracle of the `cheeto` library, which is not part of this
   * model: it is left uninterpreted.
   */
  datatype Config = Config(
    url: string,
    protocol: string,
    downloadJs: bool,
    downloadCss: bool,
    downloadImage: bool,
    maxConnections: int,
    isValid: string -> bool)
  {
    /** The prefix every canonical URL of the crawl starts with. */
    function BaseUrl(): (b: string)
      ensures IsPrefix(protocol + "://" + url, b) && |b| == |protocol| + |url| + 4 && b[|b| - 1] == '/'
    {
      protocol + "://" + url + "/"
    }

    /** The largest number of fetches the scheduler can keep open. */
    function ConnectionBound(): nat {
      if maxConnections > 0 then maxConnections else 0
    }
  }

  /**
   * The `Crawlee` constructor. Each option is combined with its default by
   * JavaScript `||`, so a falsy option (missing, empty string, 0 or false)
   * takes the default; for the download flags the default is `true`, so
   * they are on whatever the caller passes.
   */
  function MakeConfig(
    url: string,
    protocol: Option<string>,
    downloadJs: Option<bool>,
    downloadCss: Option<bool>,
    downloadImage: Option<bool>,
    maxConnections: Option<int>,
    isValid: string -> bool): (c: Config)
    ensures c.url == url && c.isValid == isValid
    ensures c.downloadJs && c.downloadCss && c.downloadImage
    ensures protocol.Some? && protocol.value != "" ==> c.protocol == protocol.value
    ensures protocol.None? || protocol == Some("") ==> c.protocol == "http"
    ensures maxConnections.Some? && maxConnections.value != 0 ==> c.maxConnections == maxConnections.value
    ensures maxConnections.None? || maxConnections == Some(0) ==> c.maxConnections == 1
    ensures c.maxConnections != 0
    ensures IsPrefix(c.protocol + "://", c.BaseUrl()) && c.BaseUrl()[|c.BaseUrl()| - 1] == '/'
  {
    var js := match downloadJs case Some(b) => b || true case None => true;
    var css := match downloadCss case Some(b) => b || true case None => true;
    var image := match downloadImage case Some(b) => b || true case None => true;
    var proto := match protocol case Some(p) => if p != "" then p else "http" case None => "http";
    var max := match maxConnections case Some(m) => if m != 0 then m else 1 case None => 1;
    var c := Config(url, proto, js, css, image, max, isValid);
    assert c.BaseUrl()[..|proto + "://"|] == proto + "://";
    c
  }

  /** `addToQueue`: append one record at the tail, with no attempts yet. */
  function AddToQueue(queue: seq<Entry>, url: string, kind: Kind): (q: seq<Entry>)
    ensures |q| == |queue| + 1 && q[..|queue|] == queue
    ensures q[|queue|].url == url && q[|queue|].kind == kind && q[|queue|].attempts == 0
  {
    queue + [Entry(url, kind, 0)]
  }
}

=== FILE: crawl_invariants.dfy ===
/**
 * What holds of every state the scheduler can reach from `go()`, whatever
 * the order in which the timer, the fetches and the extractions fire: the
 * connection bound, the bookkeeping of `stats`, that no URL is dispatched
 * twice by the timer (the seed URL may be fetched once more), and when
 * the crawl can end.
 */
module CrawlInvariants {
  import opened JsStrings
  import opened CrawlConfig
  import opened Extractors
  import opened Scheduler

  /** No URL appears twice. */
  predicate NoDup(xs: seq<string>) {
    forall i, j :: 0 <= i < j < |xs| ==> xs[i] != xs[j]
  }

  /** The counters and logs agree with each other. */
  ghost predicate Inv(cfg: Config, s: State) {
    // connections: one per open fetch, never more than the limit
    && 0 <= s.openConnections == |s.inFlight| <= cfg.ConnectionBound()
    // searches: one per pending extraction, the seed's at most once
    && s.currentSearches == |s.searches|
    && s.searches[SeedSearch] <= 1
    // every successful fetch is counted under exactly one type, or its extraction is pending
    && s.stats.total == s.stats.js + s.stats.css + s.stats.image + s.stats.html + s.stats.other
                        + s.searches[HtmlSearch] + s.searches[CssSearch]
    // every fetch handed out has succeeded, failed, or is still open
    && s.stats.total + s.stats.failed + |s.inFlight| == |s.dispatched|
    // each URL is fetched at most once, exactly the URLs recorded as downloaded
    && NoDup(s.dispatched)
    && (forall u :: u in s.dispatched <==> Visited(s.downloaded, u))
    // every record is a fresh one under the base URL
    && AllFresh(cfg, s.queue) && AllFresh(cfg, s.downloaded) && AllFresh(cfg, s.inFlight)
    // until the seed arrives nothing has happened
    && (s.seedPending ==> !s.startInterval)
    && (!s.startInterval ==>
          s.queue == [] && s.downloaded == [] && s.inFlight == [] && s.dispatched == []
          && s.searches == multiset{SeedSearch} && s.finishedCount == 0 && !s.done)
    // the idle counter, and the end of the crawl
    && 0 <= s.finishedCount <= IdleLimit + 1
    && (s.done <==> s.finishedCount == IdleLimit + 1)
    && (s.done ==> s.openConnections < cfg.maxConnections)
  }

  lemma InitInv(cfg: Config)
    ensures Inv(cfg, Init())
  {
  }

  lemma AllFreshAppend(cfg: Config, a: seq<Entry>, b: seq<Entry>)
    requires AllFresh(cfg, a) && AllFresh(cfg, b)
    ensures AllFresh(cfg, a + b)
  {
  }

  lemma VisitedAppend(downloaded: seq<Entry>, e: Entry, u: string)
    ensures Visited(downloaded + [e], u) <==> Visited(downloaded, u) || u == e.url
  {
    var d := downloaded + [e];
    if Visited(downloaded, u) {
      var i :| 0 <= i < |downloaded| && downloaded[i].url == u;
      assert d[i] == downloaded[i];
    }
    if u == e.url {
      assert d[|downloaded|] == e;
    }
  }

  lemma TickPreservesInv(cfg: Config, s: State)
    requires Inv(cfg, s)
    ensures Inv(cfg, TickStep(cfg, s))
  {
    var t := TickStep(cfg, s);
    if Active(cfg, s) && s.queue != [] {
      var cur := s.queue[0];
      forall u ensures Visited(t.downloaded, u) <==> Visited(s.downloaded, u) || u == cur.url {
        VisitedAppend(s.downloaded, cur, u);
      }
      if !Visited(s.downloaded, cur.url) {
        assert cur.url !in s.dispatched;
        assert forall i :: 0 <= i < |s.dispatched| ==> t.dispatched[i] == s.dispatched[i];
        assert t.dispatched[|s.dispatched|] == cur.url;
      }
      assert s.queue == [cur] + t.queue;
      AllFreshAppend(cfg, s.downloaded, [cur]);
      AllFreshAppend(cfg, s.inFlight, [cur]);
    }
  }

  lemma SeedDonePreservesInv(cfg: Config, s: State, b: Body)
    requires Inv(cfg, s)
    ensures Inv(cfg, SeedDoneStep(cfg, s, b))
  {
    if s.seedPending {
      SearchHtmlFresh(cfg, b.elements);
      AllFreshAppend(cfg, s.queue, SearchHtml(cfg, b.elements));
    }
  }

  lemma WithoutFresh(cfg: Config, fs: seq<Entry>, i: nat)
    requires i < |fs| && AllFresh(cfg, fs)
    ensures AllFresh(cfg, Without(fs, i))
  {
  }

  lemma FetchOkPreservesInv(cfg: Config, s: State, slot: nat, b: Body)
    requires Inv(cfg, s)
    ensures Inv(cfg, FetchOkStep(cfg, s, slot, b))
  {
    if slot < |s.inFlight| {
      WithoutFresh(cfg, s.inFlight, slot);
      SearchHtmlFresh(cfg, b.elements);
      AllFreshAppend(cfg, s.queue, SearchHtml(cfg, b.elements));
      SearchCssFresh(cfg, b.cssValues);
      AllFreshAppend(cfg, s.queue, SearchCss(cfg, b.cssValues));
    }
  }

  lemma FetchFailPreservesInv(cfg: Config, s: State, slot: nat)
    requires Inv(cfg, s)
    ensures Inv(cfg, FetchFailStep(s, slot))
  {
    if slot < |s.inFlight| {
      WithoutFresh(cfg, s.inFlight, slot);
    }
  }

  lemma ExtractionDonePreservesInv(cfg: Config, s: State, job: Extraction)
    requires Inv(cfg, s)
    ensures Inv(cfg, ExtractionDoneStep(s, job))
  {
  }

  /** Every event keeps the invariant. */
  lemma StepPreservesInv(cfg: Config, s: State, e: Event)
    requires Inv(cfg, s)
    ensures Inv(cfg, Step(cfg, s, e))
  {
    match e
    case Tick => TickPreservesInv(cfg, s);
    case SeedDone(b) => SeedDonePreservesInv(cfg, s, b);
    case SeedFail => SeedFailPreservesInv(cfg, s);
    case FetchOk(slot, b) => FetchOkPreservesInv(cfg, s, slot, b);
    case FetchFail(slot) => FetchFailPreservesInv(cfg, s, slot);
    case ExtractionDone(job) => ExtractionDonePreservesInv(cfg, s, job);
  }

  /** Any sequence of events keeps the invariant. */
  lemma {:induction false} RunPreservesInv(cfg: Config, s: State, events: seq<Event>)
    requires Inv(cfg, s)
    ensures Inv(cfg, Run(cfg, s, events))
    decreases |events|
  {
    if events != [] {
      StepPreservesInv(cfg, s, events[0]);
      RunPreservesInv(cfg, Step(cfg, s, events[0]), events[1..]);
    }
  }

  /** Every state reachable from `go()` satisfies the invariant. */
  lemma Reachable(cfg: Config, events: seq<Event>)
    ensures Inv(cfg, Run(cfg, Init(), events))
  {
    InitInv(cfg);
    RunPreservesInv(cfg, Init(), events);
  }

  /** At no point are more fetches open than `maxConnections` allows. */
  lemma ConnectionsBounded(cfg: Config, events: seq<Event>)
    ensures 0 <= Run(cfg, Init(), events).openConnections <= cfg.ConnectionBound()
  {
    Reachable(cfg, events);
  }

  /**
   * No URL is dispatched twice by the timer, and the URLs it dispatches are
   * exactly those recorded in `downloaded`. The seed URL is fetched by
   * `go()` itself without being recorded, so it may be fetched once more
   * (`SeedPageFetchedAgain`).
   */
  lemma AtMostOnceFetch(cfg: Config, events: seq<Event>)
    ensures NoDup(Run(cfg, Init(), events).dispatched)
    ensures forall u :: u in Run(cfg, Init(), events).dispatched <==> Visited(Run(cfg, Init(), events).downloaded, u)
  {
    Reachable(cfg, events);
  }

  /**
   * The counters of `stats` add up: each successful fetch is counted under
   * one type or has its extraction pending, and each fetch handed out has
   * succeeded, failed or is still open. The seed page is in none of them.
   */
  lemma StatsAccounting(cfg: Config, events: seq<Event>)
    ensures var s := Run(cfg, Init(), events);
      s.stats.total == s.stats.js + s.stats.css + s.stats.image + s.stats.html + s.stats.other
                       + s.searches[HtmlSearch] + s.searches[CssSearch]
      && s.stats.total + s.stats.failed + s.openConnections == |s.dispatched|
  {
    Reachable(cfg, events);
  }

  /** Every URL ever fetched after the seed lies under the base URL. */
  lemma FetchedUnderBase(cfg: Config, events: seq<Event>)
    ensures forall u :: u in Run(cfg, Init(), events).dispatched ==> IsPrefix(cfg.BaseUrl(), u)
  {
    var s := Run(cfg, Init(), events);
    Reachable(cfg, events);
    forall u | u in s.dispatched ensures IsPrefix(cfg.BaseUrl(), u) {
      var i :| 0 <= i < |s.downloaded| && s.downloaded[i].url == u;
    }
  }

  /**
   * The crawl ends only on an idle firing of the timer: queue empty, no
   * extraction pending, and the twenty-first counted idle firing (idle
   * firings need not be consecutive).
   */
  lemma CompletionOnlyWhenIdle(cfg: Config, s: State, e: Event)
    requires Inv(cfg, s)
    requires !s.done && Step(cfg, s, e).done
    ensures e == Tick && Active(cfg, s)
    ensures s.queue == [] && s.currentSearches == 0
    ensures s.finishedCount == IdleLimit && Step(cfg, s, e).finishedCount > IdleLimit
  {
  }

  /** Conversely, an active idle firing after twenty idle ones ends the crawl. */
  lemma IdleFiringCompletes(cfg: Config, s: State)
    requires Active(cfg, s) && s.queue == [] && s.currentSearches == 0
    requires s.finishedCount == IdleLimit
    ensures TickStep(cfg, s).done
  {
  }

  /** `n` firings of the timer. */
  function Ticks(n: nat): (evs: seq<Event>)
    ensures |evs| == n
    ensures forall i :: 0 <= i < n ==> evs[i] == Tick
  {
    if n == 0 then [] else [Tick] + Ticks(n - 1)
  }

  /**
   * From an active state with nothing queued and nothing being extracted,
   * the timer ends the crawl after the remaining idle firings, whatever
   * fetches are still open.
   */
  lemma {:induction false} IdleTicksComplete(cfg: Config, s: State, n: nat)
    requires Active(cfg, s) && s.queue == [] && s.currentSearches == 0
    requires 0 <= s.finishedCount <= IdleLimit && n == IdleLimit + 1 - s.finishedCount
    ensures Run(cfg, s, Ticks(n)).done
    ensures Run(cfg, s, Ticks(n)).inFlight == s.inFlight
    ensures Run(cfg, s, Ticks(n)).openConnections == s.openConnections
    decreases n
  {
    var t := TickStep(cfg, s);
    assert Ticks(n)[0] == Tick && Ticks(n)[1..] == Ticks(n - 1);
    if n > 1 {
      IdleTicksComplete(cfg, t, n - 1);
    } else {
      assert Ticks(n)[1..] == [];
    }
  }

  /**
   * The idle test does not look at open connections: with room for two
   * connections, a crawl whose last queued URL was just dispatched ends
   * while that fetch is still open, and whatever it would discover is lost.
   */
  lemma DoneWithFetchOpen(cfg: Config, s: State, x: Entry)
    requires Active(cfg, s) && s.queue == [x] && !Visited(s.downloaded, x.url)
    requires s.currentSearches == 0 && 0 <= s.finishedCount <= IdleLimit
    requires s.openConnections + 2 <= cfg.maxConnections
    ensures var t := Run(cfg, s, [Tick] + Ticks(IdleLimit + 1));
      t.done && t.openConnections == s.openConnections + 1 && t.inFlight == s.inFlight + [x]
  {
    var evs := [Tick] + Ticks(IdleLimit + 1);
    var t1 := TickStep(cfg, s);
    assert evs[0] == Tick && evs[1..] == Ticks(IdleLimit + 1);
    IdleTicksComplete(cfg, t1, IdleLimit + 1);
  }

  /** With a single connection the crawl can only end with no fetch open. */
  lemma SingleConnectionDrains(cfg: Config, events: seq<Event>)
    requires cfg.maxConnections == 1
    ensures Run(cfg, Init(), events).done ==> Run(cfg, Init(), events).openConnections == 0
  {
    Reachable(cfg, events);
  }

  /**
   * The idle counter goes down only when a URL is dispatched, and then to
   * zero; events other than the timer never touch it.
   */
  lemma FinishedCountResetOnlyOnDispatch(cfg: Config, s: State, e: Event)
    ensures e != Tick ==> Step(cfg, s, e).finishedCount == s.finishedCount
    ensures Step(cfg, s, e).finishedCount < s.finishedCount ==>
      e == Tick && Step(cfg, s, e).finishedCount == 0
      && |Step(cfg, s, e).dispatched| == |s.dispatched| + 1
  {
  }

  /**
   * If the seed fetch fails nothing ever happens again: the timer never
   * starts, the crawl never ends, and no event changes the state.
   */
  lemma {:induction false} SeedFailureStallsForever(cfg: Config, s: State, events: seq<Event>)
    requires Inv(cfg, s) && !s.seedPending && !s.startInterval
    ensures Run(cfg, s, events) == s
    decreases |events|
  {
    if events != [] {
      assert Step(cfg, s, events[0]) == s;
      SeedFailureStallsForever(cfg, s, events[1..]);
    }
  }

  /** A crawl whose seed fetch failed never completes. */
  lemma SeedFailureNeverCompletes(cfg: Config, events: seq<Event>)
    ensures !Run(cfg, Init(), [SeedFail] + events).done
  {
    var s := SeedFailStep(Init());
    InitInv(cfg);
    SeedFailPreservesInv(cfg, Init());
    assert ([SeedFail] + events)[0] == SeedFail && ([SeedFail] + events)[1..] == events;
    SeedFailureStallsForever(cfg, s, events);
  }

  lemma SeedFailPreservesInv(cfg: Config, s: State)
    requires Inv(cfg, s)
    ensures Inv(cfg, SeedFailStep(s))
  {
  }

  /**
   * Once the crawl has ended, nothing more is fetched: completions of
   * fetches still open may queue more URLs, but no firing dispatches them.
   */
  lemma {:induction false} NothingDispatchedAfterDone(cfg: Config, s: State, events: seq<Event>)
    requires s.done
    ensures Run(cfg, s, events).done
    ensures Run(cfg, s, events).dispatched == s.dispatched
    ensures Run(cfg, s, events).downloaded == s.downloaded
    decreases |events|
  {
    if events != [] {
      var t := Step(cfg, s, events[0]);
      assert t.done && t.dispatched == s.dispatched && t.downloaded == s.downloaded;
      NothingDispatchedAfterDone(cfg, t, events[1..]);
    }
  }

  /**
   * The seed page is not recorded in `downloaded`: when it has arrived,
   * nothing has been fetched yet, and no counter has moved.
   */
  lemma SeedNotRecorded(cfg: Config, b: Body)
    ensures var s := Step(cfg, Init(), SeedDone(b));
      s.downloaded == [] && s.dispatched == [] && s.stats == Init().stats && s.startInterval
  {
  }

  /**
   * So a link back to the base URL found on the seed page is fetched again
   * when it reaches the head of the queue.
   */
  lemma SeedPageFetchedAgain(cfg: Config, s: State)
    requires Inv(cfg, s) && Active(cfg, s) && s.dispatched == []
    requires s.queue != [] && s.queue[0].url == cfg.BaseUrl()
    ensures TickStep(cfg, s).dispatched == [cfg.BaseUrl()]
  {
  }
}

=== FILE: extractors.dfy ===
/**
 * The enqueue policy of the extractors `searchHtml` and `searchCss`. HTML
 * and CSS parsing are not part of this model: the extractors are given what
 * the parsers would report, the matched elements of a page in document order
 * and the `url()` string values inside the declarations of a stylesheet.
 */
module Extractors {
  import opened Wrappers
  import opened JsStrings
  import opened CrawlConfig
  import opened Admission

  /** The tags the page extractor selects, and every other tag. */
  datatype Tag = Anchor | Link | Script | Img | OtherTag

  /** An element as the parser reports it: its tag and its `href` and `src` attributes, each possibly missing. */
  datatype Element = Element(tag: Tag, href: Option<string>, src: Option<string>)

  /** The attribute each selector reads: `href` of `a` and `link`, `src` of `script` and `img`. */
  function Attr(el: Element): Option<string> {
    if el.tag == Anchor || el.tag == Link then el.href else el.src
  }

  /** The type each selector's discoveries are queued under; anchors are always 'other'. */
  function KindOf(tag: Tag): Kind {
    match tag
    case Anchor => Other
    case Link => Css
    case Script => Javascript
    case Img => Image
    case OtherTag => Other
  }

  /** Position of a kind in the order the page extractor enqueues its groups. */
  function Rank(k: Kind): nat {
    match k
    case Other => 0
    case Css => 1
    case Javascript => 2
    case Image => 3
    case Page => 4
  }

  /** The element carries a usable reference: a present, non-empty attribute. */
  predicate HasReference(el: Element) {
    Attr(el).Some? && Attr(el).value != ""
  }

  /** The references of the elements tagged `tag`, in document order, skipping missing and empty attributes. */
  function Candidates(els: seq<Element>, tag: Tag): (refs: seq<string>)
    ensures |refs| <= |els|
    ensures forall i :: 0 <= i < |refs| ==> refs[i] != ""
  {
    if els == [] then []
    else
      var rest := Candidates(els[1..], tag);
      if els[0].tag == tag && HasReference(els[0]) then [Attr(els[0]).value] + rest else rest
  }

  /** A string is a candidate exactly when some element with the tag carries it as a non-empty reference. */
  lemma {:induction false} CandidatesMember(els: seq<Element>, tag: Tag, r: string)
    ensures r in Candidates(els, tag) <==>
      exists el :: el in els && el.tag == tag && HasReference(el) && Attr(el).value == r
  {
    if els != [] {
      CandidatesMember(els[1..], tag, r);
      assert forall el :: el in els <==> el == els[0] || el in els[1..];
    }
  }

  /** Document order is kept: the candidates of two pieces are those of each piece, in turn. */
  lemma {:induction false} CandidatesConcat(a: seq<Element>, b: seq<Element>, tag: Tag)
    ensures Candidates(a + b, tag) == Candidates(a, tag) + Candidates(b, tag)
  {
    if a == [] {
      assert a + b == b;
    } else {
      assert (a + b)[0] == a[0];
      assert (a + b)[1..] == a[1..] + b;
      CandidatesConcat(a[1..], b, tag);
    }
  }

  /** The candidates of a single element: its reference, if it has the tag and a usable one. */
  lemma CandidatesSingle(el: Element, tag: Tag)
    ensures Candidates([el], tag) == if el.tag == tag && HasReference(el) then [Attr(el).value] else []
  {
    assert [el][1..] == [];
  }

  /** The entry `addToQueue` receives for an admitted reference. */
  function Discovered(cfg: Config, r: string, kind: Kind): Entry {
    Entry(CheckWhetherToDownload(cfg, r).url, kind, 0)
  }

  /** Each reference runs through the admission filter; the accepted ones are queued under `kind`, in order. */
  function Admit(cfg: Config, refs: seq<string>, kind: Kind): (found: seq<Entry>)
    ensures |found| <= |refs|
    ensures forall i :: 0 <= i < |found| ==>
      found[i].kind == kind && found[i].attempts == 0 && IsPrefix(cfg.BaseUrl(), found[i].url)
  {
    if refs == [] then []
    else
      var rest := Admit(cfg, refs[1..], kind);
      if CheckWhetherToDownload(cfg, refs[0]).download
      then AddToQueue([], CheckWhetherToDownload(cfg, refs[0]).url, kind) + rest
      else rest
  }

  /** An entry is queued exactly for a reference the admission filter accepts. */
  lemma {:induction false} AdmitMember(cfg: Config, refs: seq<string>, kind: Kind, e: Entry)
    ensures e in Admit(cfg, refs, kind) <==>
      exists r :: r in refs && CheckWhetherToDownload(cfg, r).download && e == Discovered(cfg, r, kind)
  {
    if refs != [] {
      AdmitMember(cfg, refs[1..], kind, e);
      assert forall r :: r in refs <==> r == refs[0] || r in refs[1..];
    }
  }

  /** Discovery order is kept: admitting two pieces admits each piece, in turn. */
  lemma {:induction false} AdmitConcat(cfg: Config, a: seq<string>, b: seq<string>, kind: Kind)
    ensures Admit(cfg, a + b, kind) == Admit(cfg, a, kind) + Admit(cfg, b, kind)
  {
    if a == [] {
      assert a + b == b;
    } else {
      assert (a + b)[0] == a[0];
      assert (a + b)[1..] == a[1..] + b;
      AdmitConcat(cfg, a[1..], b, kind);
    }
  }

  /** Admitting a single reference queues it, canonicalised, exactly when the filter accepts it. */
  lemma AdmitSingle(cfg: Config, r: string, kind: Kind)
    ensures Admit(cfg, [r], kind) ==
      if CheckWhetherToDownload(cfg, r).download then [Discovered(cfg, r, kind)] else []
  {
    assert [r][1..] == [];
  }

  /** What one selector loop (`$(tag).each(...)`) enqueues. */
  function Harvest(cfg: Config, els: seq<Element>, tag: Tag): seq<Entry> {
    Admit(cfg, Candidates(els, tag), KindOf(tag))
  }

  /** An entry is harvested exactly for an element with the tag whose reference the filter accepts. */
  lemma HarvestMember(cfg: Config, els: seq<Element>, tag: Tag, e: Entry)
    ensures e in Harvest(cfg, els, tag) <==>
      exists el :: el in els && el.tag == tag && HasReference(el)
        && CheckWhetherToDownload(cfg, Attr(el).value).download
        && e == Discovered(cfg, Attr(el).value, KindOf(tag))
  {
    var refs := Candidates(els, tag);
    AdmitMember(cfg, refs, KindOf(tag), e);
    if e in Harvest(cfg, els, tag) {
      var r :| r in refs && CheckWhetherToDownload(cfg, r).download && e == Discovered(cfg, r, KindOf(tag));
      CandidatesMember(els, tag, r);
    }
    if exists el :: el in els && el.tag == tag && HasReference(el)
        && CheckWhetherToDownload(cfg, Attr(el).value).download
        && e == Discovered(cfg, Attr(el).value, KindOf(tag)) {
      var el :| el in els && el.tag == tag && HasReference(el)
        && CheckWhetherToDownload(cfg, Attr(el).value).download
        && e == Discovered(cfg, Attr(el).value, KindOf(tag));
      CandidatesMember(els, tag, Attr(el).value);
    }
  }

  /** The selectors `searchHtml` runs, by the download flags. */
  predicate Selected(cfg: Config, tag: Tag) {
    match tag
    case Anchor => true
    case Link => cfg.downloadCss
    case Script => cfg.downloadJs
    case Img => cfg.downloadImage
    case OtherTag => false
  }

  /** Entries appear in the group order of the page extractor. */
  predicate RankSorted(s: seq<Entry>) {
    forall i, j :: 0 <= i < j < |s| ==> Rank(s[i].kind) <= Rank(s[j].kind)
  }

  /** Appending a group of one kind, ranked no lower than anything before it, keeps the order. */
  lemma RankSortedAppend(a: seq<Entry>, b: seq<Entry>, k: Kind)
    requires RankSorted(a)
    requires forall i :: 0 <= i < |a| ==> Rank(a[i].kind) <= Rank(k)
    requires forall i :: 0 <= i < |b| ==> b[i].kind == k
    ensures RankSorted(a + b)
    ensures forall i :: 0 <= i < |a + b| ==> Rank((a + b)[i].kind) <= Rank(k)
  {
  }

  /** Anchors, links, scripts and images, grouped in that order, are ranked in order. */
  lemma GroupsInOrder(anchors: seq<Entry>, links: seq<Entry>, scripts: seq<Entry>, images: seq<Entry>)
    requires forall i :: 0 <= i < |anchors| ==> anchors[i].kind == Other
    requires forall i :: 0 <= i < |links| ==> links[i].kind == Css
    requires forall i :: 0 <= i < |scripts| ==> scripts[i].kind == Javascript
    requires forall i :: 0 <= i < |images| ==> images[i].kind == Image
    ensures RankSorted(anchors + links + scripts + images)
    ensures forall i :: 0 <= i < |anchors + links + scripts + images| ==>
      (anchors + links + scripts + images)[i].kind != Page
  {
    RankSortedAppend([], anchors, Other);
    assert [] + anchors == anchors;
    RankSortedAppend(anchors, links, Css);
    RankSortedAppend(anchors + links, scripts, Javascript);
    RankSortedAppend(anchors + links + scripts, images, Image);
  }

  /**
   * `searchHtml`: the anchors, then (each when its flag is on) the links,
   * the scripts and the images. No discovery is typed as a page, and the
   * groups come in that order.
   */
  function SearchHtml(cfg: Config, els: seq<Element>): (found: seq<Entry>)
    ensures forall i :: 0 <= i < |found| ==> found[i].kind != Page
    ensures RankSorted(found)
  {
    var anchors := Harvest(cfg, els, Anchor);
    var links := if cfg.downloadCss then Harvest(cfg, els, Link) else [];
    var scripts := if cfg.downloadJs then Harvest(cfg, els, Script) else [];
    var images := if cfg.downloadImage then Harvest(cfg, els, Img) else [];
    GroupsInOrder(anchors, links, scripts, images);
    anchors + links + scripts + images
  }

  /**
   * An entry is queued by `searchHtml` exactly when a selected element
   * carries a non-empty reference that the admission filter accepts.
   */
  lemma SearchHtmlMember(cfg: Config, els: seq<Element>, e: Entry)
    ensures e in SearchHtml(cfg, els) <==>
      exists el :: el in els && Selected(cfg, el.tag) && HasReference(el)
        && CheckWhetherToDownload(cfg, Attr(el).value).download
        && e == Discovered(cfg, Attr(el).value, KindOf(el.tag))
  {
    HarvestMember(cfg, els, Anchor, e);
    HarvestMember(cfg, els, Link, e);
    HarvestMember(cfg, els, Script, e);
    HarvestMember(cfg, els, Img, e);
  }

  /** Every entry `searchHtml` queues is a never-attempted URL under the base URL, typed by its selector. */
  lemma SearchHtmlEntries(cfg: Config, els: seq<Element>)
    ensures forall e :: e in SearchHtml(cfg, els) ==>
      e.attempts == 0 && IsPrefix(cfg.BaseUrl(), e.url)
      && (e.kind == Other || (e.kind == Css && cfg.downloadCss)
          || (e.kind == Javascript && cfg.downloadJs) || (e.kind == Image && cfg.downloadImage))
  {
    forall e | e in SearchHtml(cfg, els)
      ensures e.attempts == 0 && IsPrefix(cfg.BaseUrl(), e.url)
      ensures e.kind == Other || (e.kind == Css && cfg.downloadCss)
        || (e.kind == Javascript && cfg.downloadJs) || (e.kind == Image && cfg.downloadImage)
    {
      SearchHtmlMember(cfg, els, e);
      var el :| el in els && Selected(cfg, el.tag) && HasReference(el)
        && CheckWhetherToDownload(cfg, Attr(el).value).download
        && e == Discovered(cfg, Attr(el).value, KindOf(el.tag));
    }
  }

  /** Queue records as the extractors produce them: never attempted, and under the base URL. */
  predicate AllFresh(cfg: Config, s: seq<Entry>) {
    forall i :: 0 <= i < |s| ==> s[i].attempts == 0 && IsPrefix(cfg.BaseUrl(), s[i].url)
  }

  /** Everything `searchHtml` queues is fresh. */
  lemma SearchHtmlFresh(cfg: Config, els: seq<Element>)
    ensures AllFresh(cfg, SearchHtml(cfg, els))
  {
    var found := SearchHtml(cfg, els);
    SearchHtmlEntries(cfg, els);
    assert forall i :: 0 <= i < |found| ==> found[i] in found;
  }

  /**
   * The imperative `searchHtml`: one `each` loop per selector, in the order
   * anchors, links, scripts, images, calling `addToQueue` for every accepted
   * reference.
   */
  method SearchHtmlInto(cfg: Config, queue: seq<Entry>, els: seq<Element>) returns (q: seq<Entry>)
    ensures q == queue + SearchHtml(cfg, els)
  {
    ghost var anchors := Harvest(cfg, els, Anchor);
    ghost var links := if cfg.downloadCss then Harvest(cfg, els, Link) else [];
    ghost var scripts := if cfg.downloadJs then Harvest(cfg, els, Script) else [];
    ghost var images := if cfg.downloadImage then Harvest(cfg, els, Img) else [];
    q := EachEnqueue(cfg, queue, els, Anchor);
    if cfg.downloadCss {
      q := EachEnqueue(cfg, q, els, Link);
    }
    AppendTo(queue, anchors, links, q);
    if cfg.downloadJs {
      q := EachEnqueue(cfg, q, els, Script);
    }
    AppendTo(queue, anchors + links, scripts, q);
    if cfg.downloadImage {
      q := EachEnqueue(cfg, q, els, Img);
    }
    AppendTo(queue, anchors + links + scripts, images, q);
  }

  /** Appending a group to a queue that already ends with the earlier groups. */
  lemma AppendTo(queue: seq<Entry>, earlier: seq<Entry>, group: seq<Entry>, q: seq<Entry>)
    requires q == (queue + earlier) + group
    ensures q == queue + (earlier + group)
  {
  }

  /**
   * The body of a selector loop for one element: when it has the tag and a
   * usable reference, run the reference through the admission filter and,
   * if accepted, `addToQueue` the canonical URL.
   */
  function EnqueueOne(cfg: Config, q: seq<Entry>, el: Element, tag: Tag): (r: seq<Entry>)
    ensures r != q ==> HasReference(el) && r == q + [Discovered(cfg, Attr(el).value, KindOf(tag))]
    ensures r != q <==>
      el.tag == tag && HasReference(el) && CheckWhetherToDownload(cfg, Attr(el).value).download
  {
    if el.tag == tag && HasReference(el) then
      var d := CheckWhetherToDownload(cfg, Attr(el).value);
      if d.download then AddToQueue(q, d.url, KindOf(tag)) else q
    else q
  }

  /** The loop body for one element appends what admitting that element alone would queue. */
  lemma EnqueueOneAdmits(cfg: Config, q: seq<Entry>, el: Element, tag: Tag)
    ensures EnqueueOne(cfg, q, el, tag) == q + Harvest(cfg, [el], tag)
  {
    CandidatesSingle(el, tag);
    if el.tag == tag && HasReference(el) {
      AdmitSingle(cfg, Attr(el).value, KindOf(tag));
    } else {
      assert q + [] == q;
    }
  }

  /** Running the loop body on one more element extends the queue by that element's harvest. */
  lemma HarvestStep(cfg: Config, queue: seq<Entry>, els: seq<Element>, i: nat, tag: Tag)
    requires i < |els|
    ensures EnqueueOne(cfg, queue + Harvest(cfg, els[..i], tag), els[i], tag)
            == queue + Harvest(cfg, els[..i + 1], tag)
  {
    var h := Harvest(cfg, els[..i], tag);
    var one := Harvest(cfg, [els[i]], tag);
    assert Harvest(cfg, els[..i + 1], tag) == h + one by {
      assert els[..i + 1] == els[..i] + [els[i]];
      CandidatesConcat(els[..i], [els[i]], tag);
      AdmitConcat(cfg, Candidates(els[..i], tag), Candidates([els[i]], tag), KindOf(tag));
    }
    EnqueueOneAdmits(cfg, queue + h, els[i], tag);
    AppendTo(queue, h, one, (queue + h) + one);
  }

  /** `$(tag).each(...)`: walk the elements in document order, enqueueing accepted references. */
  method EachEnqueue(cfg: Config, queue: seq<Entry>, els: seq<Element>, tag: Tag) returns (q: seq<Entry>)
    ensures q == queue + Harvest(cfg, els, tag)
  {
    q := queue;
    var i := 0;
    assert Harvest(cfg, els[..0], tag) == [];
    assert queue + [] == queue;
    while i < |els|
      invariant 0 <= i <= |els|
      invariant q == queue + Harvest(cfg, els[..i], tag)
    {
      HarvestStep(cfg, queue, els, i, tag);
      q := EnqueueOne(cfg, q, els[i], tag);
      i := i + 1;
    }
    assert els[..i] == els;
  }

  /** The text of a CSS string token: its first and last characters (the quotes) removed. */
  function Unquote(v: string): (u: string)
    ensures |v| >= 2 ==> u == v[1..|v| - 1]
    ensures |v| <= 2 ==> u == ""
  {
    Substr(v, 1, |v| - 2)
  }

  /** Quoting and then unquoting gives back the URL text. */
  lemma UnquoteQuoted(open: char, u: string, close: char)
    ensures Unquote([open] + u + [close]) == u
  {
    var v := [open] + u + [close];
    assert v[1..1 + |u|] == u;
  }

  /** The URL texts of a stylesheet's `url()` values, in order. */
  function UnquoteAll(values: seq<string>): (refs: seq<string>)
    ensures |refs| == |values|
    ensures forall i :: 0 <= i < |values| ==> refs[i] == Unquote(values[i])
  {
    if values == [] then [] else [Unquote(values[0])] + UnquoteAll(values[1..])
  }

  /**
   * `searchCss`: every `url()` value, unquoted, runs through the admission
   * filter, and the accepted ones are queued as 'other'. Unlike the page
   * extractor, an empty value is not skipped.
   */
  function SearchCss(cfg: Config, values: seq<string>): (found: seq<Entry>)
    ensures |found| <= |values|
    ensures forall i :: 0 <= i < |found| ==>
      found[i].kind == Other && found[i].attempts == 0 && IsPrefix(cfg.BaseUrl(), found[i].url)
  {
    Admit(cfg, UnquoteAll(values), Other)
  }

  /** Everything `searchCss` queues is fresh. */
  lemma SearchCssFresh(cfg: Config, values: seq<string>)
    ensures AllFresh(cfg, SearchCss(cfg, values))
  {
  }

  /** An entry is queued by `searchCss` exactly for a value whose unquoted text the filter accepts. */
  lemma SearchCssMember(cfg: Config, values: seq<string>, e: Entry)
    ensures e in SearchCss(cfg, values) <==>
      exists i :: 0 <= i < |values| && CheckWhetherToDownload(cfg, Unquote(values[i])).download
        && e == Discovered(cfg, Unquote(values[i]), Other)
  {
    var refs := UnquoteAll(values);
    AdmitMember(cfg, refs, Other, e);
    if e in SearchCss(cfg, values) {
      var r :| r in refs && CheckWhetherToDownload(cfg, r).download && e == Discovered(cfg, r, Other);
      var i :| 0 <= i < |refs| && refs[i] == r;
      assert r == Unquote(values[i]);
    }
    if exists i :: 0 <= i < |values| && CheckWhetherToDownload(cfg, Unquote(values[i])).download
        && e == Discovered(cfg, Unquote(values[i]), Other) {
      var i :| 0 <= i < |values| && CheckWhetherToDownload(cfg, Unquote(values[i])).download
        && e == Discovered(cfg, Unquote(values[i]), Other);
      assert refs[i] in refs;
    }
  }
}

=== FILE: js_strings.dfy ===
/**
 * The JavaScript string operations the crawler relies on, with their
 * ECMAScript meaning: `indexOf` finds the FIRST occurrence, `replace` with a
 * string pattern rewrites only that first occurrence, and `split('/')[0]` is
 * the text before the first slash. Strings are sequences of UTF-16 code
 * units in JavaScript; here they are sequences of `char`.
 */
module JsStrings {

  /** `p` occurs at the very start of `s`. */
  predicate IsPrefix(p: string, s: string) {
    |p| <= |s| && s[..|p|] == p
  }

  /** `p` occurs somewhere in `s`. */
  predicate Contains(s: string, p: string) {
    exists i :: 0 <= i <= |s| && IsPrefix(p, s[i..])
  }

  /** The characters `p[k..]` sit in `s` from position `i + k` on. */
  predicate MatchAt(s: string, p: string, i: nat, k: nat)
    requires i + |p| <= |s|
    decreases |p| - k
  {
    k >= |p| || (s[i + k] == p[k] && MatchAt(s, p, i, k + 1))
  }

  lemma {:induction false} MatchAtIsPrefix(s: string, p: string, i: nat, k: nat)
    requires i + |p| <= |s|
    requires k <= |p|
    ensures MatchAt(s, p, i, k) <==> s[i + k..i + |p|] == p[k..]
    decreases |p| - k
  {
    if k < |p| {
      MatchAtIsPrefix(s, p, i, k + 1);
      assert s[i + k..i + |p|] == [s[i + k]] + s[i + k + 1..i + |p|];
      assert p[k..] == [p[k]] + p[k + 1..];
    }
  }

  /**
   * JavaScript `s.indexOf(p, from)`: the first position at or after `from`
   * where `p` occurs in `s`, or -1 when there is none (`IndexFromMeaning`).
   */
  function IndexFrom(s: string, p: string, from: nat): (r: int)
    ensures r == -1 || from <= r <= |s| - |p|
    decreases |s| - from
  {
    if from + |p| > |s| then -1
    else if MatchAt(s, p, from, 0) then from
    else IndexFrom(s, p, from + 1)
  }

  /** `IndexFrom` finds an occurrence, and no earlier one from `from` on; -1 means there is none. */
  lemma {:induction false} IndexFromMeaning(s: string, p: string, from: nat)
    ensures IndexFrom(s, p, from) == -1 <==> forall j :: from <= j <= |s| ==> !IsPrefix(p, s[j..])
    ensures 0 <= IndexFrom(s, p, from) ==> IsPrefix(p, s[IndexFrom(s, p, from)..])
    ensures forall j :: from <= j < IndexFrom(s, p, from) ==> !IsPrefix(p, s[j..])
    decreases |s| - from
  {
    if from + |p| <= |s| {
      MatchAtIsPrefix(s, p, from, 0);
      assert IsPrefix(p, s[from..]) <==> s[from..from + |p|] == p;
      if !MatchAt(s, p, from, 0) {
        IndexFromMeaning(s, p, from + 1);
      }
    }
  }

  /** JavaScript `s.indexOf(p)`: the first position of `p` in `s`, or -1 (`IndexOfMeaning`). */
  function IndexOf(s: string, p: string): (r: int)
    ensures r == -1 || 0 <= r <= |s| - |p|
  {
    IndexFrom(s, p, 0)
  }

  /** `indexOf` is -1 exactly when the pattern is absent, and otherwise its first occurrence. */
  lemma IndexOfMeaning(s: string, p: string)
    ensures IndexOf(s, p) == -1 <==> !Contains(s, p)
    ensures 0 <= IndexOf(s, p) ==> IsPrefix(p, s[IndexOf(s, p)..])
    ensures forall j :: 0 <= j < IndexOf(s, p) ==> !IsPrefix(p, s[j..])
  {
    IndexFromMeaning(s, p, 0);
  }

  /** `indexOf` reports 0 exactly when the string starts with the pattern. */
  lemma IndexOfZero(s: string, p: string)
    ensures IndexOf(s, p) == 0 <==> IsPrefix(p, s)
  {
    IndexOfMeaning(s, p);
    assert s[0..] == s;
  }

  /**
   * JavaScript `s.replace(p, r)` with a string pattern: only the first
   * occurrence of `p` is rewritten (`ReplaceFirstMeaning`).
   */
  function ReplaceFirst(s: string, p: string, r: string): (t: string)
    ensures |t| == |s| || |t| == |s| - |p| + |r|
  {
    var i := IndexOf(s, p);
    if i < 0 then s else s[..i] + r + s[i + |p|..]
  }

  /**
   * Without an occurrence the string is unchanged; with one, exactly the
   * first copy of the pattern is traded for the replacement.
   */
  lemma ReplaceFirstMeaning(s: string, p: string, r: string)
    ensures !Contains(s, p) ==> ReplaceFirst(s, p, r) == s
    ensures Contains(s, p) ==> |ReplaceFirst(s, p, r)| == |s| - |p| + |r|
    ensures IsPrefix(p, s) ==> ReplaceFirst(s, p, r) == r + s[|p|..]
    ensures forall i ::
              0 <= i <= |s| && IsPrefix(p, s[i..]) && (forall j :: 0 <= j < i ==> !IsPrefix(p, s[j..]))
              ==> ReplaceFirst(s, p, r) == s[..i] + r + s[i + |p|..]
  {
    IndexOfMeaning(s, p);
    IndexOfZero(s, p);
    forall i | 0 <= i <= |s| && IsPrefix(p, s[i..]) && (forall j :: 0 <= j < i ==> !IsPrefix(p, s[j..]))
      ensures ReplaceFirst(s, p, r) == s[..i] + r + s[i + |p|..]
    {
      assert Contains(s, p);
      assert IndexOf(s, p) == i;
    }
  }

  /**
   * JavaScript `s.split('/')[0]`: the text before the first slash, or the
   * whole string when it has none.
   */
  function FirstSegment(s: string): (seg: string)
    ensures IsPrefix(seg, s)
    ensures seg == s || s[|seg|] == '/'
  {
    var i := IndexOf(s, "/");
    IndexOfMeaning(s, "/");
    if i < 0 then s else s[..i]
  }

  /** The first segment holds no slash, so it ends at the first slash of the string. */
  lemma FirstSegmentHasNoSlash(s: string)
    ensures '/' !in FirstSegment(s)
  {
    var i := IndexOf(s, "/");
    IndexOfMeaning(s, "/");
    var n := if i < 0 then |s| else i;
    forall j | 0 <= j < n ensures s[j] != '/' {
      assert !IsPrefix("/", s[j..]);
    }
    assert FirstSegment(s) == s[..n];
  }

  /** The first segment ends at the first slash. */
  lemma SegmentBeforeSlash(s: string, n: nat)
    requires n < |s| && s[n] == '/' && '/' !in s[..n]
    ensures FirstSegment(s) == s[..n]
  {
    FirstSegmentHasNoSlash(s);
  }

  /** A string that lacks one of the pattern's characters cannot contain it. */
  lemma MissingCharNotContained(s: string, p: string, c: char)
    requires c in p
    requires c !in s
    ensures !Contains(s, p)
  {
  }

  /** Anything found in a suffix of `s` is found in `s`. */
  lemma ContainsSuffix(s: string, p: string, n: nat)
    requires n <= |s|
    ensures Contains(s[n..], p) ==> Contains(s, p)
  {
    if Contains(s[n..], p) {
      var i :| 0 <= i <= |s[n..]| && IsPrefix(p, s[n..][i..]);
      assert s[n..][i..] == s[n + i..];
    }
  }

  /**
   * JavaScript `s.substr(start, length)`: at most `length` characters from
   * `start` on, nothing when `length` is not positive.
   */
  function Substr(s: string, start: nat, length: int): (t: string)
    ensures |t| <= |s|
    ensures start + length <= |s| && 0 <= length ==> t == s[start..start + length]
  {
    if length <= 0 || start >= |s| then []
    else if start + length <= |s| then s[start..start + length]
    else s[start..]
  }
}

=== FILE: scheduler.dfy ===
/**
 * The crawl scheduler of `go()`: the seed fetch, the 50 ms `setInterval`
 * tick that dispatches at most one queued URL per firing, and the
 * completions of fetches and extractions, as one state record and one step
 * function per event. Timers, promises and the network are not modelled:
 * each callback the event loop would run is an event, and any interleaving
 * of events is allowed.
 */
module Scheduler {
  import opened Wrappers
  import opened CrawlConfig
  import opened ContentType
  import opened Extractors

  /** The `stats` object without its clock fields. */
  datatype Stats = Stats(js: nat, css: nat, image: nat, html: nat, other: nat, total: nat, failed: nat)

  /** An extraction whose completion callback (`currentSearches--`) has not run yet. */
  datatype Extraction = SeedSearch | HtmlSearch | CssSearch

  /**
   * A fetched response as the extractors see it: the `content-type` header
   * (possibly missing), the elements of the HTML parse and the `url()`
   * string values inside the declarations of the CSS parse.
   */
  datatype Body = Body(contentType: Option<string>, elements: seq<Element>, cssValues: seq<string>)

  /** The callbacks the event loop may run next. */
  datatype Event =
    | Tick                                  // one firing of the interval timer
    | SeedDone(seedBody: Body)              // the seed page's `saveFile` resolved
    | SeedFail                              // the seed page's `saveFile` rejected
    | FetchOk(slot: nat, body: Body)        // the `slot`-th open fetch resolved
    | FetchFail(failedSlot: nat)            // the `failedSlot`-th open fetch rejected
    | ExtractionDone(job: Extraction)       // a pending extraction's `.then` ran

  /**
   * The crawler's mutable fields and the closure variables of `go()`, plus
   * four fields of bookkeeping the source does not keep: whether the seed
   * fetch is still outstanding, the records of the open fetches, the
   * pending extractions, and the log of URLs handed to `saveFile`.
   */
  datatype State = State(
    queue: seq<Entry>,
    downloaded: seq<Entry>,
    openConnections: int,
    currentSearches: int,
    finishedCount: int,
    startInterval: bool,
    stats: Stats,
    done: bool,
    seedPending: bool,
    inFlight: seq<Entry>,
    searches: multiset<Extraction>,
    dispatched: seq<string>)

  /** `go()` just called: the seed fetch is out and counted as a search. */
  function Init(): (s: State)
    ensures s.queue == [] && s.downloaded == [] && s.inFlight == [] && s.dispatched == []
    ensures s.currentSearches == 1 && s.searches == multiset{SeedSearch}
    ensures s.seedPending && !s.startInterval && !s.done
  {
    State([], [], 0, 1, 0, false, Stats(0, 0, 0, 0, 0, 0, 0), false, true, [], multiset{SeedSearch}, [])
  }

  /** Some record in `downloaded` has this URL: the duplicate check of the timer callback. */
  predicate Visited(downloaded: seq<Entry>, url: string) {
    exists i :: 0 <= i < |downloaded| && downloaded[i].url == url
  }

  /** The timer callback does real work: not cleared, seed settled, a connection free. */
  predicate Active(cfg: Config, s: State) {
    !s.done && s.startInterval && s.openConnections < cfg.maxConnections
  }

  /** The number of idle firings after which the timer is cleared. */
  const IdleLimit: int := 20

  /**
   * One firing of the interval timer. An inactive firing does nothing. An
   * active one with a non-empty queue dequeues the head, records it in
   * `downloaded` whether or not it was seen before, and opens a fetch only
   * for a URL not seen before; that is the only place `finishedCount` is
   * reset. An active firing on an empty queue counts as idle only when no
   * extraction is pending, and the crawl ends on the idle firing that takes
   * `finishedCount` past the limit.
   */
  function TickStep(cfg: Config, s: State): (t: State)
    ensures !Active(cfg, s) ==> t == s
    ensures Active(cfg, s) && s.queue != [] ==>
      t.queue == s.queue[1..] && t.downloaded == s.downloaded + [s.queue[0]] && !t.done
      && t.stats == s.stats && t.searches == s.searches
    ensures Active(cfg, s) && s.queue != [] && !Visited(s.downloaded, s.queue[0].url) ==>
      t.inFlight == s.inFlight + [s.queue[0]] && t.dispatched == s.dispatched + [s.queue[0].url]
      && t.openConnections == s.openConnections + 1 && t.finishedCount == 0
    ensures Active(cfg, s) && s.queue != [] && Visited(s.downloaded, s.queue[0].url) ==>
      t.inFlight == s.inFlight && t.dispatched == s.dispatched
      && t.openConnections == s.openConnections && t.finishedCount == s.finishedCount
    ensures Active(cfg, s) && s.queue == [] && s.currentSearches != 0 ==> t == s
    ensures Active(cfg, s) && s.queue == [] && s.currentSearches == 0 ==>
      t == s.(finishedCount := s.finishedCount + 1, done := s.finishedCount + 1 > IdleLimit)
  {
    if !Active(cfg, s) then s
    else if s.queue != [] then
      var cur := s.queue[0];
      var found := Visited(s.downloaded, cur.url);
      var s1 := s.(queue := s.queue[1..], downloaded := s.downloaded + [cur]);
      if found then s1
      else s1.(openConnections := s.openConnections + 1, finishedCount := 0,
               inFlight := s.inFlight + [cur], dispatched := s.dispatched + [cur.url])
    else if s.currentSearches == 0 then
      var n := s.finishedCount + 1;
      s.(finishedCount := n, done := n > IdleLimit)
    else s
  }

  /**
   * The seed page arrived: its links are enqueued by `searchHtml` (whatever
   * type the header gives it) and the timer may start. The seed is not
   * recorded in `downloaded` and not counted in `stats`.
   */
  function SeedDoneStep(cfg: Config, s: State, b: Body): (t: State)
    ensures !s.seedPending ==> t == s
    ensures s.seedPending ==>
      t.queue == s.queue + SearchHtml(cfg, b.elements) && t.startInterval && !t.seedPending
      && t.stats == s.stats && t.downloaded == s.downloaded && t.searches == s.searches
  {
    if !s.seedPending then s
    else s.(queue := s.queue + SearchHtml(cfg, b.elements), startInterval := true, seedPending := false)
  }

  /** The seed fetch failed: nothing catches it, so the timer never starts. */
  function SeedFailStep(s: State): (t: State)
    ensures t.seedPending == false
    ensures t.(seedPending := s.seedPending) == s
  {
    s.(seedPending := false)
  }

  /** The open fetches without the one in position `i`. */
  function Without(fs: seq<Entry>, i: nat): (r: seq<Entry>)
    requires i < |fs|
    ensures |r| == |fs| - 1
    ensures forall j :: 0 <= j < i ==> r[j] == fs[j]
    ensures forall j :: i <= j < |r| ==> r[j] == fs[j + 1]
  {
    fs[..i] + fs[i + 1..]
  }

  /**
   * The type `saveFile` resolves with for a record: its requested type,
   * unless the header reclassifies it.
   */
  function ResolvedKind(requested: Kind, contentType: Option<string>): (k: Kind)
    ensures requested in {Css, Javascript, Image} ==> k == requested
    ensures requested in {Page, Other} ==> k in {requested, Page, Css}
    ensures requested in {Page, Other} && contentType == Some("text/html") ==> k == Page
    ensures requested in {Page, Other} && contentType == Some("text/css") ==> k == Css
    ensures requested in {Page, Other} && contentType != Some("text/html") && contentType != Some("text/css")
            ==> k == requested
  {
    match Reclassify(Some(requested), contentType).kind
    case Some(k) => k
    case None => requested
  }

  /**
   * A fetch resolved. The connection is released and `total` counted. A
   * page or stylesheet is searched at once, and its completion callback
   * (which counts it) stays pending; any other type is counted right away.
   */
  function FetchOkStep(cfg: Config, s: State, slot: nat, b: Body): (t: State)
    ensures slot >= |s.inFlight| ==> t == s
    ensures slot < |s.inFlight| ==>
      t.inFlight == Without(s.inFlight, slot) && t.openConnections == s.openConnections - 1
      && t.stats.total == s.stats.total + 1 && t.stats.failed == s.stats.failed
      && t.downloaded == s.downloaded && t.dispatched == s.dispatched
      && t.finishedCount == s.finishedCount && t.done == s.done
    ensures slot < |s.inFlight| ==>
      var k := ResolvedKind(s.inFlight[slot].kind, b.contentType);
      t.queue == s.queue + (if k == Page then SearchHtml(cfg, b.elements)
                            else if k == Css then SearchCss(cfg, b.cssValues) else [])
      && t.searches == s.searches + (if k == Page then multiset{HtmlSearch}
                                     else if k == Css then multiset{CssSearch} else multiset{})
      && t.currentSearches == s.currentSearches + (if k in {Page, Css} then 1 else 0)
      && t.stats.js == s.stats.js + (if k == Javascript then 1 else 0)
      && t.stats.image == s.stats.image + (if k == Image then 1 else 0)
      && t.stats.other == s.stats.other + (if k == Other then 1 else 0)
      && t.stats.html == s.stats.html && t.stats.css == s.stats.css
  {
    if slot >= |s.inFlight| then s
    else
      var cur := s.inFlight[slot];
      var st := s.stats.(total := s.stats.total + 1);
      var s1 := s.(inFlight := Without(s.inFlight, slot), openConnections := s.openConnections - 1);
      match ResolvedKind(cur.kind, b.contentType)
      case Page =>
        s1.(queue := s.queue + SearchHtml(cfg, b.elements), currentSearches := s.currentSearches + 1,
            searches := s.searches + multiset{HtmlSearch}, stats := st)
      case Css =>
        s1.(queue := s.queue + SearchCss(cfg, b.cssValues), currentSearches := s.currentSearches + 1,
            searches := s.searches + multiset{CssSearch}, stats := st)
      case Javascript => s1.(stats := st.(js := st.js + 1))
      case Image => s1.(stats := st.(image := st.image + 1))
      case Other => s1.(stats := st.(other := st.other + 1))
  }

  /** A fetch failed: only `failed` is counted, and the connection is released. */
  function FetchFailStep(s: State, slot: nat): (t: State)
    ensures slot >= |s.inFlight| ==> t == s
    ensures slot < |s.inFlight| ==>
      t.inFlight == Without(s.inFlight, slot) && t.openConnections == s.openConnections - 1
      && t.stats.failed == s.stats.failed + 1 && t.stats.(failed := s.stats.failed) == s.stats
      && t.(inFlight := s.inFlight, openConnections := s.openConnections, stats := s.stats) == s
  {
    if slot >= |s.inFlight| then s
    else s.(inFlight := Without(s.inFlight, slot), openConnections := s.openConnections - 1,
            stats := s.stats.(failed := s.stats.failed + 1))
  }

  /**
   * A pending extraction's completion callback: `currentSearches--`, and
   * for a page or stylesheet the matching counter. The seed's callback can
   * only run once the seed has arrived.
   */
  function ExtractionDoneStep(s: State, job: Extraction): (t: State)
    ensures job !in s.searches || (job == SeedSearch && !s.startInterval) ==> t == s
    ensures job in s.searches && (job != SeedSearch || s.startInterval) ==>
      t.searches == s.searches - multiset{job} && t.currentSearches == s.currentSearches - 1
      && t.stats.total == s.stats.total && t.stats.failed == s.stats.failed
      && t.stats.html == s.stats.html + (if job == HtmlSearch then 1 else 0)
      && t.stats.css == s.stats.css + (if job == CssSearch then 1 else 0)
      && t.queue == s.queue && t.inFlight == s.inFlight && t.dispatched == s.dispatched
    ensures job in s.searches && (job != SeedSearch || s.startInterval) ==>
      t.(searches := s.searches, currentSearches := s.currentSearches, stats := s.stats) == s
      && t.stats.js == s.stats.js && t.stats.image == s.stats.image && t.stats.other == s.stats.other
  {
    if job !in s.searches || (job == SeedSearch && !s.startInterval) then s
    else
      var st :=
        match job
        case SeedSearch => s.stats
        case HtmlSearch => s.stats.(html := s.stats.html + 1)
        case CssSearch => s.stats.(css := s.stats.css + 1);
      s.(searches := s.searches - multiset{job}, currentSearches := s.currentSearches - 1, stats := st)
  }

  /**
   * One callback of the event loop. Only the timer hands URLs to `saveFile`
   * or records them, the dispatch log only grows, and an ended crawl stays
   * ended.
   */
  function Step(cfg: Config, s: State, e: Event): (t: State)
    ensures e != Tick ==> t.dispatched == s.dispatched && t.downloaded == s.downloaded
    ensures |s.dispatched| <= |t.dispatched| && t.dispatched[..|s.dispatched|] == s.dispatched
    ensures s.done ==> t.done
  {
    match e
    case Tick => TickStep(cfg, s)
    case SeedDone(b) => SeedDoneStep(cfg, s, b)
    case SeedFail => SeedFailStep(s)
    case FetchOk(slot, b) => FetchOkStep(cfg, s, slot, b)
    case FetchFail(slot) => FetchFailStep(s, slot)
    case ExtractionDone(job) => ExtractionDoneStep(s, job)
  }

  /**
   * The state after a sequence of events, in order. Along any run the
   * dispatch log only grows and an ended crawl stays ended.
   */
  function Run(cfg: Config, s: State, events: seq<Event>): (t: State)
    ensures |s.dispatched| <= |t.dispatched| && t.dispatched[..|s.dispatched|] == s.dispatched
    ensures s.done ==> t.done
    decreases |events|
  {
    if events == [] then s else Run(cfg, Step(cfg, s, events[0]), events[1..])
  }

  /**
   * An anchor queued as 'other' that the server answers with 'text/html' is
   * searched as a page: its links join the queue and its extraction becomes
   * pending.
   */
  lemma AnchorPageIsSearched(cfg: Config, s: State, slot: nat, b: Body)
    requires slot < |s.inFlight| && s.inFlight[slot].kind == Other
    requires b.contentType == Some("text/html")
    ensures FetchOkStep(cfg, s, slot, b).queue == s.queue + SearchHtml(cfg, b.elements)
    ensures FetchOkStep(cfg, s, slot, b).searches == s.searches + multiset{HtmlSearch}
  {
  }

  /**
   * The duplicate check of the timer callback: a linear scan of
   * `downloaded` for the URL, stopping at the first hit.
   */
  method ScanDownloaded(downloaded: seq<Entry>, url: string) returns (found: bool)
    ensures found <==> Visited(downloaded, url)
  {
    found := false;
    var i := 0;
    while i < |downloaded|
      invariant 0 <= i <= |downloaded|
      invariant !found
      invariant forall j :: 0 <= j < i ==> downloaded[j].url != url
    {
      if downloaded[i].url == url {
        found := true;
        return;
      }
      i := i + 1;
    }
  }
}

=== FILE: wrappers.dfy ===
/** Optional values: JavaScript's `undefined` next to a present value. */
module Wrappers {

  datatype Option<+T> = None | Some(value: T)
}
